=== FILE: README.md ===
# DiscMaker and HornMaker, modelled in Dafny

DiscMaker and HornMaker are two browser pages that make Minecraft content. The disc page makes a
custom music disc and the horn page a custom goat horn. On each page the user stacks tinted
16×16 tiles into an item texture and names the sound. The page then shows a `/give` command and
exports two zip archives:

- a data pack, which registers a jukebox song or an instrument;
- a resource pack, which carries the recording, the texture, the item model(s), the sound
  registration and the translation.

Every file name and identifier derives from one number: the `cyrb53` hash of the display name.

This project models the pure logic under the browser plumbing and proves its properties:

- `Numerals`: JavaScript's `toString(radix)` and `parseInt` on digit strings, and the decimal
  rendering of numbers.
- `Utf16`: a string as JavaScript sees it, a sequence of UTF-16 code units. `charCodeAt` reads
  them and `length` counts them.
- `ColorCodec`: `rgbToHex` and `hexToRgb`. Channels are reals. Encoding scales by 255, clamps from
  above, floors and prints two lower-case hex digits. Decoding strips one optional `#` and falls
  back to black on a wrong length. The round trips between the two are proved.
- `Cyrb53`: the hash, bit-exact, on `bv32` lanes. `Math.imul` is the wrapping product and `>>>`
  the logical shift. Strings enter as their UTF-16 code units. The loop is a left fold; a method
  runs it as written and is proved equal to the fold. Published reference values are proved.
- `Layers`: `ImagePart`, `Layer` and `LayerStack`.
  - A layer holds a tile, a tint and an identity `layer-N`; N comes from a page-wide counter,
    which is explicit session state here.
  - Rendering issues one draw call per layer: source tile, destination square and a 4×5 colour
    matrix. It does not produce pixels.
  - The matrix text lists the tint's three factors each followed by four zeros. Read as 4 rows of
    5, the green and blue factors stand in the first column. The filter therefore writes the
    tile's red channel, scaled by each factor, into all three colour channels. On a grey tile that
    is the same as tinting each channel.
  - The pack icon is a black fill followed by a render.
- `Packs`: what both pages share.
  - Archive entries: a path as its chain of folder names, and the content.
  - Namespaced locations (`ns:dir/name`) and the files the game opens for them.
  - Compact JSON text built from members, objects and arrays, with containment lemmas.
  - The page state: name, hash and the `makingResources` guard.
- `DiscMaker` and `HornMaker`: each page's initial stack, pack icon geometry and `updateCommand`,
  the data and resource pack trees, the two export functions, and the proof that every
  cross-reference resolves to a file the packs emit.
- `LegacyDisc`: the older single-file disc page. Its pack formats are fixed at 52 and 37.

`script.js` opens with the same library as `common.js`: its lines 1-177 repeat common.js:1-175,
with two more blank lines after `cyrb53`. The `common.js` rows below therefore also describe
`script.js`. The legacy page's `updateCommand` (script.js:351-368) is textually the disc page's
and is modelled by `DiscMaker.UpdateCommand`.

Where the pages read their input, it is a parameter:

- the DOM fields (title, artist, comparator level, range);
- the codec service's outcome (`ProbeRun`, `TranscodeRun`): a failing step, or the probe's last
  log line or the transcoded bytes;
- the pack format numbers `DATA_PACK_VERSION` and `RESOURCE_PACK_VERSION`, which the newer
  pages' scripts use but do not define.

## Model

| member | source | states |
|---|---|---|
| Numerals.NatToString | common.js:7 | `toString(radix)` of a non-negative integer: at least one lower-case digit of the radix, no leading zero except for 0 itself, a single digit exactly when the number is below the radix |
| Numerals.ParseNatToString | common.js:24-26 | `parseInt` with the same radix reads back exactly the number `toString` printed |
| Numerals.DecimalInjective | common.js:74 | distinct numbers never print the same decimal text |
| ColorCodec.RgbToHex | common.js:1-15 | the encoding always starts with `#` and has at least seven characters, for any reals, negative ones included |
| ColorCodec.ChannelDigits | common.js:3-12 | for a channel ≥ 0 the text is exactly two lower-case hex digits, the high and low nibble of floor(min(255·c, 255)); the zero-padding makes single digits two long |
| ColorCodec.ChannelSaturates | common.js:5 | any channel ≥ 1 prints `ff`: the clamp is from above only |
| ColorCodec.RgbToHexLayout | common.js:14 | for non-negative channels the text is `#` and six lower-case hex digits, each pair reading back as its channel's quantized value, a saturated channel giving `ff` |
| ColorCodec.QuantizeWithin | common.js:5 | for a channel in [0, 1] the byte lies in 0..255 and its /255 view lies within 1/255 below the channel, never above it |
| ColorCodec.StripHash | common.js:18-20 | a leading `#` is removed, exactly one; text that does not start with `#` is returned unchanged |
| ColorCodec.Pair | common.js:24-26 | a two-digit slice reads as 16 × first digit + second digit, below 256 |
| ColorCodec.Unit | common.js:28 | the /255 view of a byte lies in [0, 1] and scales back to the byte exactly |
| ColorCodec.HexToRgb | common.js:17-29 | every decoded channel lies in [0, 1]; a remainder whose `length` in UTF-16 code units is not 6 decodes to black; otherwise the remainder is six characters and each channel × 255 is its hex pair's value |
| ColorCodec.DecodeFallback | common.js:21-23 | any text whose remainder after one `#` is not six code units long decodes to black |
| ColorCodec.HashStrippedOnce | common.js:18-23 | only one `#` is stripped, so `##abcdef` leaves seven units and decodes to black |
| ColorCodec.LengthCountsUnits | common.js:21-23 | the length test counts code units: `#12345` followed by one emoji is six characters but seven units after the `#`, and decodes to black |
| ColorCodec.PairRoundTrip | common.js:7-28 | decoding a hex pair and encoding the channel again gives the pair lower-cased |
| ColorCodec.HexRoundTrip | common.js:1-29 | six hex digits decode the same with or without `#`, and re-encode to `#` followed by the digits lower-cased |
| ColorCodec.DecodeEncoded | common.js:1-29 | decoding an encoding gives each channel's quantized byte / 255 |
| ColorCodec.EncodeDecodeWithin | common.js:1-29 | for channels in [0, 1] the encode-decode trip is a valid decode and moves each channel down by less than 1/255, never up |
| ColorCodec.UnitQuantize | common.js:5-28 | a byte value divided by 255 quantizes back to the same byte |
| ColorCodec.ColorTextStable | common.js:1-29 | any `#` and six lower-case hex digits decodes and re-encodes to itself |
| ColorCodec.EncodeIsStable | common.js:109-112 | a colour input that shows `rgbToHex` of a tint and is set back through `hexToRgb` shows the same text again |
| Utf16.CodeUnits | common.js:35 | a string has between one and two UTF-16 code units per character, exactly one each when all lie in the Basic Multilingual Plane |
| Utf16.CodeUnitsOfBmp | common.js:35 | in the Basic Multilingual Plane `charCodeAt(i)` is the i-th character's code |
| Utf16.SurrogatePair | common.js:35 | a character above U+FFFF is two units, a high surrogate in [D800, DC00) and a low one in [DC00, E000), which spell its code point back as 0x400 × (high − D800) + (low − DC00) + 0x10000 |
| Utf16.CodeUnitsAppend | common.js:34-35 | the units of a concatenation are the units of the first part followed by those of the second |
| Cyrb53.Combine | common.js:44 | the combination of the finished lanes is always an integer in [0, 2^53) |
| Cyrb53.CombineSplits | common.js:44 | the result's low 32 bits are the first lane as unsigned and the bits above are the low 21 bits of the second |
| Cyrb53.Hash | common.js:32-45 | every hash lies in [0, 2^53) |
| Cyrb53.RunSnoc | common.js:34-38 | the loop is a left fold: one more code unit is one more absorption of both lanes by their own odd constants |
| Cyrb53.RunAppend | common.js:34-38 | hashing is incremental: the lanes after a prefix are all the rest of the string needs |
| Cyrb53.EmptyHash | common.js:33-44 | the empty string skips the loop and yields only the finalized seed constants; for seed 0 that is 3338908027751811 |
| Cyrb53.ReferenceValuesShort | common.js:32-45 | with seed 0, `a` hashes to 7929297801672961 and `b` to 8684336938537663, the published values |
| Cyrb53.ReferenceValuesLong | common.js:32-45 | with seed 0, `revenge` hashes to 4051478007546757 and `revenue` to 8309097637345594 |
| Cyrb53.Cyrb53 | script.js:32-45 | the loop as written, one index and two lanes updated in place, computes the fold's hash and stays below 2^53; the text is identical to common.js:32-45 |
| Cyrb53.HashName | script.js:363 | a page hashes its name with the default seed 0, giving a number below 2^53 |
| Layers.ColorMatrix | common.js:56-59 | the matrix text has 20 values: red at position 0, green at 5, blue at 10, the alpha 1 at 18 and 0 everywhere else, so in 4 rows of 5 the three factors share the first column |
| Layers.TintReadsRed | common.js:56-63 | the filter sends (R, G, B, A) to (r·R, g·R, b·R, A) for the tint (r, g, b); a white tint gives (R, R, R, A) |
| Layers.TintIgnoresGreenBlue | common.js:56-63 | two pixels with the same red and alpha come out of the filter the same: the tile's green and blue are never read |
| Layers.TintOnGrey | common.js:56-63 | on a grey pixel the filter multiplies each channel by the tint's and keeps alpha; a white tint leaves a grey pixel unchanged |
| Layers.Render | common.js:170-174 | a stack render issues exactly one draw per layer, in stack order, each the layer's own draw |
| Layers.RenderGeometry | common.js:54-64 | each draw copies the 16×16 tile at (0, 16 × tile) to the square at (offset, offset) of side `size`, through the matrix with that layer's red, green and blue factors at positions 0, 5 and 10 |
| Layers.RenderAppend | common.js:170-174 | rendering a stack split in two issues the draws of the lower part and then those of the upper part |
| Layers.PackIcon | discmaker/script.js:126-140 | the icon has one call more than the stack has layers: first a black fill of the whole 128×128 canvas, then for each layer i, call i + 1 copies exactly that layer's tile, through its tint, to the square (inset, inset, size, size) |
| Layers.PackIconInside | script.js:335-349 | whenever inset + size ≤ 128, every call of the icon stays inside the 128-pixel canvas |
| Layers.Tiles | discmaker/script.js:50-52 | a counting loop from `lo` to `hi` offers the indices lo, lo+1, …, hi−1 and nothing else |
| Layers.AddLayer | common.js:148-156 | the new layer goes on top with the tile at 16 × index and a white tint; the layers below are unchanged; its identity is `layer-` and the counter's value, which goes up by one |
| Layers.AddLayerFresh | common.js:68-78 | adding keeps the stack well formed; the new identity is used by no layer on the stack and equals no identity issued before; the render gains exactly one draw, at the end |
| Layers.LayerIdInjective | common.js:74 | two counter values give two different identities |
| Layers.IdsDistinct | common.js:68-78 | in a well-formed stack no two layers share an identity |
| Layers.RemoveLayer | common.js:158-168 | only the first layer with the identity is removed and the others keep their order; an unknown identity leaves the stack unchanged |
| Layers.MatchInTail | common.js:158-168 | past a non-matching head, an identity absent from the rest is absent from the stack, and the first match moves one place down in the rest |
| Layers.RemoveLayerLoop | script.js:160-170 | the indexed loop with `splice` and `break` computes exactly the first-match removal; the text is identical to common.js:158-168 |
| Layers.FirstMatch | common.js:159-166 | when some layer has the identity, the loop stops at the first such position |
| Layers.RemoveLayerWf | common.js:158-168 | removing keeps the stack well formed and leaves no layer with that identity; the stack shrinks by one exactly when the identity was present |
| Layers.Recolor | common.js:111-112 | a colour change retints the layer with that identity and leaves every other layer as it was |
| Layers.RecolorRender | common.js:111-115 | after a colour change the stack stays well formed and its render differs only in that layer's matrix |
| Packs.HashText | discmaker/script.js:156 | a hash appears in the templates as a non-empty string of decimal digits |
| Packs.ObjectEmbeds | discmaker/script.js:202 | each member written into a JSON object template appears in its text |
| Packs.Manifest | discmaker/script.js:197 | `pack.mcmeta` carries the given `pack_format` number and the description |
| Packs.BeginResources | discmaker/script.js:222-234 | a build in flight refuses (`AlreadyRunning`); otherwise a missing name or hash refuses (`NameNotSet`); a refusal changes nothing; otherwise exactly the flag is raised |
| Packs.EndResources | discmaker/script.js:217-220 | ending a build lowers the flag and keeps the name and hash |
| Packs.GuardExcludesSecondBuild | discmaker/script.js:215-234 | while a build is in flight a second one is refused and changes nothing; once it ends a new one can start |
| DiscMaker.InitialStack | discmaker/script.js:35-52 | the page starts with tile 0 tinted (0.318, 0.318, 0.318) as `layer-0`, under tile 1 tinted white as `layer-1`, with the counter at 2; the overlay palette is tiles 2 to 23 |
| DiscMaker.PackIconGeometry | discmaker/script.js:126-140 | the icon stays inside the canvas and every layer draws to (12, 12, 112, 112): 12 pixels from the top-left edges and 4 from the others, so the square is not centred |
| DiscMaker.UpdateCommand | discmaker/script.js:142-159 | the name is `artist - title` with an artist and the title alone otherwise; the hash is always set to cyrb53 of the name; exports become possible exactly when the title or the artist is non-empty; the commands name `discmaker:<hash>` |
| DiscMaker.CommandsShareLocation | discmaker/script.js:156-157 | the `/give` command and the item JSON both name the same location as the item model and as the jukebox song |
| DiscMaker.SongJsonFields | discmaker/script.js:202 | the song file carries the comparator level, the translation key `record.discmaker.<hash>`, the length and the sound id `discmaker:music_disc.<hash>` |
| DiscMaker.DataPack | discmaker/script.js:196-202 | the data pack is exactly two files with distinct paths: the manifest with the data format and `DiscMaker Data: <name>`, and `data/discmaker/jukebox_song/<hash>.json` |
| DiscMaker.DownloadData | discmaker/script.js:167-213 | the export is refused exactly when the name is empty or the hash unset; a throwing codec step aborts it; otherwise it builds the data pack with the probe's duration, 300 when the probe logged nothing |
| DiscMaker.ResourcePack | discmaker/script.js:262-287 | the resource pack is seven files in this order: manifest, 128-pixel icon, language file, `sounds/records/<hash>.ogg` with the transcoded bytes, the 16-pixel texture render, `sounds.json` and `models/item/<hash>.json` |
| DiscMaker.ResourcePathsDistinct | discmaker/script.js:262-287 | no two files of the resource pack share a path |
| DiscMaker.ReferencesResolve | discmaker/script.js:202-287 | the language key equals the key the song translates; `sounds.json` registers the song's sound event and names the emitted recording; the model's `layer0` names the emitted texture |
| DiscMaker.SoundsReferences | discmaker/script.js:286 | `sounds.json` keys the event `music_disc.<hash>` and names the recording `discmaker:records/<hash>` |
| DiscMaker.ModelReferences | discmaker/script.js:287 | the item model's `layer0` texture is `discmaker:item/<hash>` |
| DiscMaker.CommandsResolve | discmaker/script.js:156-202 | the location the commands show is registered by the data pack as a jukebox song and has its item model in the resource pack |
| DiscMaker.DownloadResources | discmaker/script.js:215-301 | refused with the page unchanged when a build is in flight or the name or hash is missing; otherwise the flag is down again afterwards, whether the build completes or a codec step throws |
| DiscMaker.FilesSeparateHashes | discmaker/script.js:199-287 | two different hashes never name the same song file, recording, texture or item model |
| HornMaker.InitialStack | hornmaker/script.js:34-47 | the page starts with tile 0 alone, tinted (0.722, 0.663, 0.6), as `layer-0`; the overlay palette is tiles 1, 2 and 3 |
| HornMaker.PackIconGeometry | hornmaker/script.js:122-136 | the icon stays inside the canvas and every layer draws to (8, 8, 112, 112), with equal margins left and right and above and below |
| HornMaker.UpdateCommand | hornmaker/script.js:138-150 | the name is the title alone; the hash is always set to cyrb53 of it; exports become possible exactly when the title is non-empty; the commands name `hornmaker:<hash>` |
| HornMaker.CommandsShareLocation | hornmaker/script.js:147-148 | the `/give` command and the item JSON both name the same location as the item model and as the instrument |
| HornMaker.InstrumentJsonFields | hornmaker/script.js:193 | the instrument file carries the range, the translation key `instrument.hornmaker.<hash>`, the use duration and the sound id `hornmaker:goat_horn.<hash>` |
| HornMaker.DataPack | hornmaker/script.js:187-193 | the data pack is exactly two files with distinct paths: the manifest with `HornMaker Data: <name>`, and `data/hornmaker/instrument/<hash>.json` |
| HornMaker.DownloadData | hornmaker/script.js:158-204 | the export is refused exactly when the name is empty or the hash unset; a throwing codec step aborts it; otherwise it builds the data pack with the probe's duration, 300 when the probe logged nothing |
| HornMaker.ResourcePack | hornmaker/script.js:253-279 | the resource pack is eight files in order, including `sounds/goat_horn/<hash>.ogg` with the transcoded bytes and the two models `<hash>.json` and `<hash>_tooting.json` |
| HornMaker.ResourcePathsDistinct | hornmaker/script.js:253-279 | no two files share a path; the idle and tooting models differ |
| HornMaker.SoundsReferences | hornmaker/script.js:277 | `sounds.json` keys the event `goat_horn.<hash>` and names the recording `hornmaker:goat_horn/<hash>` |
| HornMaker.ModelReferences | hornmaker/script.js:278-279 | both models use the texture `hornmaker:item/<hash>`; the idle model overrides `tooting` 1 with `hornmaker:item/<hash>_tooting` |
| HornMaker.ReferencesResolve | hornmaker/script.js:193-279 | the language key equals the translated key; the sound event and recording resolve; both models' texture and the override's model are emitted files |
| HornMaker.CommandsResolve | hornmaker/script.js:147-193 | the location the commands show is registered by the data pack as an instrument and has its item model in the resource pack |
| HornMaker.DownloadResources | hornmaker/script.js:206-293 | refused with the page unchanged when a build is in flight or the name or hash is missing; otherwise the flag is down again afterwards, whether the build completes or a codec step throws |
| LegacyDisc.FormatDigits | script.js:406 | the format numbers 52 and 37 print as the text the older templates hard-code |
| LegacyDisc.DownloadData | script.js:376-422 | refused, for want of a name, exactly when the name is empty or the hash unset; a throwing probe aborts it; otherwise it builds the newer page's data pack with format 52, so its manifest says `pack_format` 52 and its song file is `jukebox_song/<hash>.json` |
| LegacyDisc.DownloadResources | script.js:424-513 | refused with the page unchanged when a build is in flight or the name or hash is missing, and refused as already running exactly when a build is in flight; otherwise the flag is down afterwards, a throwing codec step gives that failure, and a completed build is the newer page's resource pack with format 37: seven files, `pack_format` 37, `sounds/records/<hash>.ogg` |
| LegacyDisc.BuiltPacksResolve | script.js:406-497 | when both older exports complete for a ready page, the data pack registers the song as a jukebox song, the resource pack holds the recording and the item model, and `sounds.json` names that recording |

## Left out

- DOM construction and event wiring are not modelled; they are user interface only. This covers `generateLayerDiv`, `addOverlay`, `init`'s handlers, `saveImage`, `fileChanged`, alerts, download anchors and the page-level `addLayer` and `removeLayer` wrappers.
- Pixels are not modelled. The SVG `feColorMatrix` filter (`createFilter`), `drawImage` and `toBlob` depend on the browser's colour pipeline, so a render is the list of its draw calls.
- The matrix is kept as reals, not as the text JavaScript prints for floats. `c * 255` and `/ 255` are exact real arithmetic, not IEEE doubles.
- ColorCodec.HexToRgb: requires six hex digits when the stripped text is six UTF-16 code units long, because `parseInt` on other characters is not modelled: it reads a leading digit prefix (`5g` gives 5), a sign (`-f` gives -15) and leading whitespace, and gives `NaN` when no digit comes first. Text such as `#-fffff`, which the page decodes to channels -15/255, 1 and 1, outside [0, 1], or `#1234` followed by one emoji, which gives two channels and a `NaN`, is outside this precondition.
- Utf16.CodeUnits: a JavaScript string holding a lone surrogate has no Dafny `string` counterpart. `Cyrb53.Hash` on a sequence of code units still covers such input.
- The codec service is not modelled: `writeFile`, `ffprobe`, `exec` and `readFile`, their arguments, and the log listener. Its effect is a parameter: which step threw, or the last log line or the audio bytes.
- The listeners registered on each export all write the one global duration, and the model keeps only "the last line logged". `writeFile` is not awaited in the source, but every codec failure is modelled as caught by the surrounding `try`.
- Zipping, base64 encoding and the download are not modelled; the model stops at the list of entries. `pack.png` reaches the archive as a promise, which is asynchronous plumbing.
- DiscMaker.DownloadResources: the page state is read once, at the start. The page's function reads `hash` and `trackName` again after awaiting `exec` and `readFile` (discmaker/script.js:263-287), but it fixed the audio file name at line 253 and rendered the texture at line 241 before those awaits, and renders the icon (line 264) after them. An `updateCommand` or a recolour while the codec runs is not modelled. It could store the audio as `<old hash>.ogg` while `sounds.json` names `records/<new hash>`, or give an icon that differs from the texture. `DiscMaker.ReferencesResolve` holds only for a build during which the page does not change.
- HornMaker.DownloadResources: the same single read of the page state. hornmaker/script.js fixes the file name at line 244 and renders the texture at line 232 before the codec awaits, then reads `hash` and `soundName` again at lines 254-279. `HornMaker.ReferencesResolve` likewise holds only for a build during which the page does not change.
- LegacyDisc.DownloadResources: the same single read of the page state, as for `DiscMaker.DownloadResources`.
- DiscMaker.DownloadData: the page state is read once, at the start. The page's function checks `trackName` and `hash` at discmaker/script.js:169, awaits `fetchFile` (line 178) and `ffprobe` (line 190), then reads `trackName` (line 197) and `hash` (line 202) again. An `updateCommand` during the probe gives a pack for the new name and hash, and clearing the title then gives a pack for the empty name and its hash, although the check has already passed. The contract holds only for an export during which the page does not change.
- HornMaker.DownloadData: the same single read. hornmaker/script.js checks at line 160, awaits at lines 169 and 181, and reads `soundName` and `hash` again at lines 188 and 193.
- LegacyDisc.DownloadData: the same single read. script.js checks at line 378, awaits at lines 387 and 399, and reads `trackName` and `hash` again at lines 406 and 411.
- Packs.Step: no step stands for a missing upload. With no file chosen, `upload.files[0]` is undefined and reading `name` from it throws before any codec step (discmaker/script.js:176 and 244, hornmaker/script.js:167 and 235, script.js:385 and 453). The model can express that only as `Failed(WriteInput)`. In the data export the throw escapes the function, outside the `try` around `writeFile`. In the resource export the outer `catch` lowers `makingResources`, as the model's `Failed` does.
- A rejected `generateAsync` is not modelled. The resource export's `then` callback would never lower `makingResources` after one, and no `catch` is attached to that promise.
- The templates interpolate the name and the comparator or range text without escaping. No lemma claims the emitted files are well-formed JSON.
- Two names whose hashes collide share every file. Only distinct hashes are proved to give distinct files.
- The newer pages read the pack format numbers from `DATA_PACK_VERSION` and `RESOURCE_PACK_VERSION`, which their scripts use but do not define. They are therefore parameters.
- The older page loads the codec from `window.location` rather than `window.location.origin`. That is loading plumbing.
- The `updateCallback` observers (common.js:75, 145-152) are not modelled. The effect they trigger, a re-render of the page canvas, is `Layers.Render` of the new stack.

=== FILE: color_codec.dfy ===
/** Conversion between a tint, three channels nominally in [0, 1], and the `#rrggbb` text a colour
    input shows. The channels are exact reals: the rounding of `c * 255` and `v / 255` in
    double precision is not modelled. */
module ColorCodec {
  import opened Numerals
  import opened Utf16

  datatype Rgb = Rgb(r: real, g: real, b: real)

  const Black := Rgb(0.0, 0.0, 0.0)
  const White := Rgb(1.0, 1.0, 1.0)

  /** Channels inside [0, 1]: what every tint produced by decoding satisfies. */
  predicate InUnitRange(c: Rgb) {
    0.0 <= c.r <= 1.0 && 0.0 <= c.g <= 1.0 && 0.0 <= c.b <= 1.0
  }

  /** The integer a channel encodes to: `Math.floor(Math.min(c * 255, 255))`. There is no lower
      clamp, so a negative channel gives a negative integer. */
  function Quantize(c: real): int {
    (if c * 255.0 < 255.0 then c * 255.0 else 255.0).Floor
  }

  /** `n.toString(16)` for any integer, with the minus sign JavaScript prints for a negative. */
  function JsHex(n: int): string {
    if n < 0 then "-" + NatToString(-n, 16) else NatToString(n, 16)
  }

  /** One channel as text: its hex rendering, with one `0` in front when that is a single digit. */
  function Channel(c: real): string {
    var out := JsHex(Quantize(c));
    if |out| < 2 then "0" + out else out
  }

  function RgbToHex(rgb: Rgb): (hex: string)
    ensures |hex| >= 7 && hex[0] == '#'
  {
    "#" + Channel(rgb.r) + Channel(rgb.g) + Channel(rgb.b)
  }

  /** `#` followed by exactly six lower-case hex digits. */
  predicate IsColorText(hex: string) {
    |hex| == 7 && hex[0] == '#' && forall i :: 1 <= i < 7 ==> IsLowerDigit(hex[i], 16)
  }

  /** The text after at most one leading `#`. */
  function StripHash(hex: string): (s: string)
    ensures |hex| > 0 && hex[0] == '#' ==> s == hex[1..]
    ensures (|hex| == 0 || hex[0] != '#') ==> s == hex
  {
    if |hex| > 0 && hex[0] == '#' then hex[1..] else hex
  }

  /** The text's `length`: JavaScript counts UTF-16 code units, not characters. */
  function JsLength(s: string): nat {
    |CodeUnits(s)|
  }

  /** Hex digits are single code units, so digit text is as long in units as in characters. */
  lemma DigitsLength(s: string)
    requires AllDigits(s, 16)
    ensures JsLength(s) == |s|
  {
    assert forall i :: 0 <= i < |s| ==> s[i] as int < PlaneSize;
  }

  /** What the decoder demands of its input: when six code units follow the `#`, they are all hex
      digits. Text of any other length is accepted and decodes to black. */
  predicate Decodable(hex: string) {
    JsLength(StripHash(hex)) == 6 ==> AllDigits(StripHash(hex), 16)
  }

  /** The value of a two-digit hex pair starting at `i`. */
  function Pair(s: string, i: nat): (v: nat)
    requires i + 2 <= |s| && AllDigits(s[i..i + 2], 16)
    ensures v == DigitValue(s[i]) * 16 + DigitValue(s[i + 1])
    ensures v < 256
  {
    assert s[i..i + 2] == [s[i], s[i + 1]];
    ParseTwoDigits(s[i], s[i + 1]);
    ParseNumeral(s[i..i + 2], 16)
  }

  lemma ParseTwoDigits(a: char, b: char)
    requires IsHexDigit(a) && IsHexDigit(b)
    ensures AllDigits([a, b], 16)
    ensures ParseNumeral([a, b], 16) == DigitValue(a) * 16 + DigitValue(b)
  {
    assert [a] == [] + [a];
    ParseSnoc([], a, 16);
    assert [a, b] == [a] + [b];
    ParseSnoc([a], b, 16);
  }

  function HexToRgb(hex: string): (rgb: Rgb)
    requires Decodable(hex)
    ensures InUnitRange(rgb)
    ensures JsLength(StripHash(hex)) != 6 ==> rgb == Black
    ensures JsLength(StripHash(hex)) == 6 ==>
              && |StripHash(hex)| == 6
              && rgb.r * 255.0 == Pair(StripHash(hex), 0) as real
              && rgb.g * 255.0 == Pair(StripHash(hex), 2) as real
              && rgb.b * 255.0 == Pair(StripHash(hex), 4) as real
  {
    var s := StripHash(hex);
    if JsLength(s) != 6 then Black
    else
      DigitsLength(s);
      assert AllDigits(s[0..2], 16) && AllDigits(s[2..4], 16) && AllDigits(s[4..6], 16);
      Rgb(Unit(Pair(s, 0)), Unit(Pair(s, 2)), Unit(Pair(s, 4)))
  }

  /** A byte value as a channel: `v / 255`. */
  function Unit(v: nat): (c: real)
    requires v < 256
    ensures 0.0 <= c <= 1.0 && c * 255.0 == v as real
  {
    v as real / 255.0
  }

  // ---------------------------------------------------------------------------------------------
  // Channel encoding

  /** A channel at 0 or above encodes as the two lower-case hex digits of its quantized value,
      which lies in [0, 255]; the zero padding is the leading `0` digit of values below 16. */
  lemma ChannelDigits(c: real)
    requires 0.0 <= c
    ensures 0 <= Quantize(c) <= 255
    ensures Channel(c) == [DigitChar(Quantize(c) / 16), DigitChar(Quantize(c) % 16)]
  {
    var q := Quantize(c);
    assert 0 <= q <= 255;
    if q < 16 {
      assert NatToString(q, 16) == [DigitChar(q)];
    } else {
      assert NatToString(q, 16) == NatToString(q / 16, 16) + [DigitChar(q % 16)];
      assert NatToString(q / 16, 16) == [DigitChar(q / 16)];
    }
  }

  /** A channel at 1 or above is clamped and encodes as `ff`. */
  lemma ChannelSaturates(c: real)
    requires 1.0 <= c
    ensures Channel(c) == "ff"
  {
    ChannelDigits(c);
    assert Quantize(c) == 255;
  }

  /** The encoder's promise over inputs with no negative channel: `#`, then three two-digit
      lower-case pairs, each reading back as that channel's quantized value; a channel at 1 or
      above gives `ff`. */
  lemma RgbToHexLayout(rgb: Rgb)
    requires 0.0 <= rgb.r && 0.0 <= rgb.g && 0.0 <= rgb.b
    ensures IsColorText(RgbToHex(rgb))
    ensures AllDigits(RgbToHex(rgb)[1..], 16)
    ensures Pair(RgbToHex(rgb), 1) == Quantize(rgb.r)
    ensures Pair(RgbToHex(rgb), 3) == Quantize(rgb.g)
    ensures Pair(RgbToHex(rgb), 5) == Quantize(rgb.b)
    ensures rgb.r >= 1.0 ==> RgbToHex(rgb)[1..3] == "ff"
    ensures rgb.g >= 1.0 ==> RgbToHex(rgb)[3..5] == "ff"
    ensures rgb.b >= 1.0 ==> RgbToHex(rgb)[5..7] == "ff"
  {
    ChannelDigits(rgb.r);
    ChannelDigits(rgb.g);
    ChannelDigits(rgb.b);
    var hex := RgbToHex(rgb);
    assert hex[1..3] == Channel(rgb.r);
    assert hex[3..5] == Channel(rgb.g);
    assert hex[5..7] == Channel(rgb.b);
    DivMod(Quantize(rgb.r), 16);
    DivMod(Quantize(rgb.g), 16);
    DivMod(Quantize(rgb.b), 16);
  }

  // ---------------------------------------------------------------------------------------------
  // Round trips

  /** Decoding a pair of hex digits and encoding the channel again gives the pair back,
      lower-cased. */
  lemma PairRoundTrip(s: string, i: nat)
    requires i + 2 <= |s| && AllDigits(s[i..i + 2], 16)
    ensures Channel(Unit(Pair(s, i))) == LowerString(s[i..i + 2])
  {
    var v := Pair(s, i);
    var a, b := s[i], s[i + 1];
    assert s[i..i + 2] == [a, b];
    assert IsHexDigit(a) && IsHexDigit(b);
    UnitQuantize(v);
    ChannelDigits(Unit(v));
    assert v / 16 == DigitValue(a) && v % 16 == DigitValue(b);
    DigitCharOfValue(a);
    DigitCharOfValue(b);
  }

  /** Dividing a byte value by 255 and quantizing again gives the value back. */
  lemma UnitQuantize(v: nat)
    requires v < 256
    ensures Quantize(Unit(v)) == v
  {
    var c := Unit(v);
    assert c * 255.0 == v as real;
  }

  /** Six hex digits, with or without the `#`, decode and re-encode to `#` and the same digits in
      lower case. */
  lemma HexRoundTrip(s: string)
    requires |s| == 6 && AllDigits(s, 16)
    ensures Decodable(s) && Decodable("#" + s)
    ensures HexToRgb(s) == HexToRgb("#" + s)
    ensures RgbToHex(HexToRgb(s)) == "#" + LowerString(s)
  {
    assert StripHash("#" + s) == s;
    assert StripHash(s) == s;
    DigitsLength(s);
    ReencodePairs(s);
    LowerSplit(s);
  }

  lemma ReencodePairs(s: string)
    requires |s| == 6 && AllDigits(s, 16)
    ensures Decodable(s)
    ensures RgbToHex(HexToRgb(s)) == "#" + LowerString(s[0..2]) + LowerString(s[2..4]) + LowerString(s[4..6])
  {
    assert StripHash(s) == s;
    DigitsLength(s);
    assert AllDigits(s[0..2], 16) && AllDigits(s[2..4], 16) && AllDigits(s[4..6], 16);
    var rgb := HexToRgb(s);
    assert rgb == Rgb(Unit(Pair(s, 0)), Unit(Pair(s, 2)), Unit(Pair(s, 4)));
    PairRoundTrip(s, 0);
    PairRoundTrip(s, 2);
    PairRoundTrip(s, 4);
  }

  lemma LowerSplit(s: string)
    requires |s| == 6
    ensures "#" + LowerString(s) == "#" + LowerString(s[0..2]) + LowerString(s[2..4]) + LowerString(s[4..6])
  {
    var a, b, c := s[0..2], s[2..4], s[4..6];
    assert s == a + b + c;
    LowerAppend(a + b, c);
    LowerAppend(a, b);
    Regroup("#", LowerString(a), LowerString(b), LowerString(c));
  }

  lemma Regroup(x: string, a: string, b: string, c: string)
    ensures x + (a + b + c) == x + a + b + c
  {
  }

  /** Quantizing a channel in [0, 1] and dividing back by 255 loses less than 1/255. */
  lemma QuantizeWithin(c: real)
    requires 0.0 <= c <= 1.0
    ensures 0 <= Quantize(c) <= 255
    ensures c - 1.0 / 255.0 < Unit(Quantize(c)) <= c
  {
    var q := Quantize(c);
    assert c * 255.0 <= 255.0;
    assert q as real <= c * 255.0 < q as real + 1.0;
  }

  /** The six digits after the `#` the encoder wrote, read pairwise, are the quantized channels. */
  lemma EncodedPairs(c: Rgb)
    requires 0.0 <= c.r && 0.0 <= c.g && 0.0 <= c.b
    ensures var s := StripHash(RgbToHex(c));
              && |s| == 6 && AllDigits(s, 16)
              && Pair(s, 0) == Quantize(c.r) && Pair(s, 2) == Quantize(c.g) && Pair(s, 4) == Quantize(c.b)
  {
    ChannelDigits(c.r);
    ChannelDigits(c.g);
    ChannelDigits(c.b);
    var s := StripHash(RgbToHex(c));
    assert s == Channel(c.r) + Channel(c.g) + Channel(c.b);
    assert s[0..2] == Channel(c.r) && s[2..4] == Channel(c.g) && s[4..6] == Channel(c.b);
    DivMod(Quantize(c.r), 16);
    DivMod(Quantize(c.g), 16);
    DivMod(Quantize(c.b), 16);
  }

  /** Decoding what the encoder produced gives back each channel's quantized value over 255. */
  lemma DecodeEncoded(c: Rgb)
    requires 0.0 <= c.r && 0.0 <= c.g && 0.0 <= c.b
    ensures Decodable(RgbToHex(c))
    ensures 0 <= Quantize(c.r) <= 255 && 0 <= Quantize(c.g) <= 255 && 0 <= Quantize(c.b) <= 255
    ensures HexToRgb(RgbToHex(c)) == Rgb(Unit(Quantize(c.r)), Unit(Quantize(c.g)), Unit(Quantize(c.b)))
  {
    EncodedPairs(c);
  }

  /** Encoding then decoding a tint inside [0, 1] loses less than 1/255 per channel, and never
      rounds up. */
  lemma EncodeDecodeWithin(c: Rgb)
    requires InUnitRange(c)
    ensures Decodable(RgbToHex(c))
    ensures var d := HexToRgb(RgbToHex(c));
              && c.r - 1.0 / 255.0 < d.r <= c.r
              && c.g - 1.0 / 255.0 < d.g <= c.g
              && c.b - 1.0 / 255.0 < d.b <= c.b
  {
    DecodeEncoded(c);
    QuantizeWithin(c.r);
    QuantizeWithin(c.g);
    QuantizeWithin(c.b);
  }

  /** The colour text the picker shows is a fixed point: decoding and re-encoding it changes
      nothing. */
  lemma EncodeIsStable(c: Rgb)
    requires 0.0 <= c.r && 0.0 <= c.g && 0.0 <= c.b
    ensures Decodable(RgbToHex(c))
    ensures RgbToHex(HexToRgb(RgbToHex(c))) == RgbToHex(c)
  {
    RgbToHexLayout(c);
    ColorTextStable(RgbToHex(c));
  }

  /** Colour text in the form the encoder prints decodes and re-encodes to itself. */
  lemma ColorTextStable(hex: string)
    requires IsColorText(hex)
    ensures Decodable(hex)
    ensures RgbToHex(HexToRgb(hex)) == hex
  {
    var s := hex[1..];
    assert hex == "#" + s;
    assert forall i :: 0 <= i < |s| ==> s[i] == hex[i + 1];
    HexRoundTrip(s);
    LowerFixed(s);
  }

  /** Only one `#` is stripped; anything that is not six code units after it is black. */
  lemma DecodeFallback(hex: string)
    requires JsLength(StripHash(hex)) != 6
    ensures Decodable(hex) && HexToRgb(hex) == Black
  {
  }

  /** Only one leading `#` is stripped: `##abcdef` leaves seven characters and decodes to black. */
  lemma HashStrippedOnce()
    ensures HexToRgb("#" + "#" + "abcdef") == Black
  {
    assert StripHash("#" + "#" + "abcdef") == "#abcdef";
    DigitsLength("abcdef");
    assert JsLength("#abcdef") == 7 by { CodeUnitsAppend("#", "abcdef"); }
    DecodeFallback("#" + "#" + "abcdef");
  }

  /** The length test counts code units: six characters, one of them outside the Basic
      Multilingual Plane, are seven units long and decode to black. */
  lemma LengthCountsUnits()
    ensures |StripHash("#12345\U{1F600}")| == 6
    ensures JsLength(StripHash("#12345\U{1F600}")) == 7
    ensures HexToRgb("#12345\U{1F600}") == Black
  {
    var emoji := "\U{1F600}";
    assert "#12345\U{1F600}" == "#12345" + emoji;
    assert StripHash("#12345" + emoji) == "12345" + emoji;
    DigitsLength("12345");
    SurrogatePair(emoji[0]);
    assert emoji == [emoji[0]];
    CodeUnitsAppend("12345", emoji);
    DecodeFallback("#12345\U{1F600}");
  }
}

=== FILE: cyrb53.dfy ===
/** The cyrb53 string hash, bit-exact. JavaScript's `^`, `Math.imul` and `>>>` all act on the 32-bit
    two's-complement pattern of their operands, so each lane is a `bv32`: `Math.imul` is the
    wrapping product, `>>>` the logical shift, and only the final `>>> 0` and `& 2097151` turn bits
    back into numbers. */
module Cyrb53 {
  import opened Utf16

  /** The largest value plus one: results are 21 bits of one lane above 32 bits of the other. */
  const Bound: nat := 0x20_0000_0000_0000
  const TwoTo32: nat := 0x1_0000_0000

  const Prime1: bv32 := 2654435761
  const Prime2: bv32 := 1597334677
  const Mix1: bv32 := 2246822507
  const Mix2: bv32 := 3266489909

  datatype Lanes = Lanes(h1: bv32, h2: bv32)

  /** `Math.imul`: the product of the two 32-bit patterns, wrapped to 32 bits. */
  function Imul(a: bv32, b: bv32): bv32 {
    a * b
  }

  /** The lanes before any character: fixed constants XORed with the seed's int32 pattern. */
  function Start(seed: bv32): Lanes {
    Lanes(0xdeadbeef ^ seed, 0x41c6ce57 ^ seed)
  }

  /** One loop iteration: each lane absorbs the code unit and is multiplied by its own odd
      constant, wrapping at 32 bits as `Math.imul` does. */
  function Absorb(l: Lanes, ch: CodeUnit): Lanes {
    Lanes(Imul(l.h1 ^ (ch as bv32), Prime1), Imul(l.h2 ^ (ch as bv32), Prime2))
  }

  /** The loop, run over the code units front to back from the lanes `l`. */
  function Run(l: Lanes, units: seq<CodeUnit>): Lanes
    decreases |units|
  {
    if units == [] then l else Run(Absorb(l, units[0]), units[1..])
  }

  /** The avalanche after the loop; the second lane is mixed with the already updated first. */
  function Finalize(l: Lanes): Lanes {
    var h1 := Imul(l.h1 ^ (l.h1 >> 16), Mix1);
    var h1' := h1 ^ Imul(l.h2 ^ (l.h2 >> 13), Mix2);
    var h2 := Imul(l.h2 ^ (l.h2 >> 16), Mix1);
    var h2' := h2 ^ Imul(h1' ^ (h1' >> 13), Mix2);
    Lanes(h1', h2')
  }

  /** `4294967296 * (2097151 & h2) + (h1 >>> 0)`. */
  function Combine(l: Lanes): (r: nat)
    ensures r < Bound
  {
    TwoTo32 * ((l.h2 & 0x1F_FFFF) as nat) + l.h1 as nat
  }

  /** `cyrb53(str, seed)` on the code units of `str`. */
  function Hash(units: seq<CodeUnit>, seed: bv32): (r: nat)
    ensures r < Bound
  {
    Combine(Finalize(Run(Start(seed), units)))
  }

  /** The pages hash a name with the default seed 0. */
  function HashName(name: string): (r: nat)
    ensures r < Bound
  {
    Hash(CodeUnits(name), 0)
  }

  // ---------------------------------------------------------------------------------------------
  // Properties

  /** Running over one more code unit is one more absorption: the loop is a left fold. */
  lemma {:induction false} RunSnoc(l: Lanes, units: seq<CodeUnit>, ch: CodeUnit)
    ensures Run(l, units + [ch]) == Absorb(Run(l, units), ch)
    decreases |units|
  {
    if units == [] {
      assert [] + [ch] == [ch];
    } else {
      assert (units + [ch])[1..] == units[1..] + [ch];
      RunSnoc(Absorb(l, units[0]), units[1..], ch);
    }
  }

  /** Hashing is incremental: the lanes after a prefix are all that the rest needs. */
  lemma {:induction false} RunAppend(l: Lanes, a: seq<CodeUnit>, b: seq<CodeUnit>)
    ensures Run(l, a + b) == Run(Run(l, a), b)
    decreases |a|
  {
    if a != [] {
      assert (a + b)[1..] == a[1..] + b;
      RunAppend(Absorb(l, a[0]), a[1..], b);
    } else {
      assert a + b == b;
    }
  }

  /** The result splits back into its two halves: the low 32 bits are the first lane, the high
      21 bits the low 21 bits of the second. */
  lemma CombineSplits(l: Lanes)
    ensures Combine(l) % TwoTo32 == l.h1 as nat
    ensures Combine(l) / TwoTo32 == (l.h2 & 0x1F_FFFF) as nat
  {
    var hi, lo := (l.h2 & 0x1F_FFFF) as nat, l.h1 as nat;
    assert lo < TwoTo32;
    assert Combine(l) == TwoTo32 * hi + lo;
    HighLow(hi, lo);
  }

  lemma HighLow(hi: nat, lo: nat)
    requires lo < TwoTo32
    ensures (TwoTo32 * hi + lo) % TwoTo32 == lo
    ensures (TwoTo32 * hi + lo) / TwoTo32 == hi
  {
  }

  /** The empty string skips the loop: only the seed's finalized start lanes remain. */
  lemma EmptyHash(seed: bv32)
    ensures Hash([], seed) == Combine(Finalize(Start(seed)))
    ensures HashName("") == 3338908027751811
  {
    assert CodeUnits("") == [];
  }

  /** Published reference values of cyrb53 with seed 0, for "a" and "b". */
  lemma ReferenceValuesShort()
    ensures HashName("a") == 7929297801672961
    ensures HashName("b") == 8684336938537663
  {
    assert CodeUnits("a") == [0x61];
    assert CodeUnits("b") == [0x62];
    assert Run(Start(0), [0x61]) == Absorb(Start(0), 0x61);
    assert Run(Start(0), [0x62]) == Absorb(Start(0), 0x62);
  }

  /** Published reference values of cyrb53 with seed 0, for "revenge" and "revenue": two names
      one character apart hash far apart. */
  lemma ReferenceValuesLong()
    ensures HashName("revenge") == 4051478007546757
    ensures HashName("revenue") == 8309097637345594
  {
    LongNameUnits();
    LongUnitsHash();
  }

  /** The two names are plain ASCII, one unit per letter. */
  lemma LongNameUnits()
    ensures CodeUnits("revenge") == [0x72, 0x65, 0x76, 0x65, 0x6e, 0x67, 0x65]
    ensures CodeUnits("revenue") == [0x72, 0x65, 0x76, 0x65, 0x6e, 0x75, 0x65]
  {
    CodeUnitsOfBmp("revenge");
    CodeUnitsOfBmp("revenue");
  }

  /** The lane values after each unit of the two names, and the hashes they finalise to. */
  lemma LongUnitsHash()
    ensures Hash([0x72, 0x65, 0x76, 0x65, 0x6e, 0x67, 0x65], 0) == 4051478007546757
    ensures Hash([0x72, 0x65, 0x76, 0x65, 0x6e, 0x75, 0x65], 0) == 8309097637345594
  {
    var prefix: seq<CodeUnit> := [0x72, 0x65, 0x76, 0x65, 0x6e];
    var l1 := Lanes(0xeef3ff8d, 0x59e56f89);
    var l2 := Lanes(0xb5809768, 0xb21e545c);
    var l3 := Lanes(0x40c7a9be, 0x87396472);
    var l4 := Lanes(0xd161f36b, 0x61433d63);
    var l5 := Lanes(0x5ca96375, 0x56ac9c91);
    assert Absorb(Start(0), 0x72) == l1;
    assert Absorb(l1, 0x65) == l2;
    assert Absorb(l2, 0x76) == l3;
    assert Absorb(l3, 0x65) == l4;
    assert Absorb(l4, 0x6e) == l5;
    assert Run(l5, []) == l5;
    assert Run(l4, [0x6e]) == l5;
    assert Run(l3, [0x65, 0x6e]) == l5;
    assert Run(l2, [0x76, 0x65, 0x6e]) == l5;
    assert Run(l1, [0x65, 0x76, 0x65, 0x6e]) == l5;
    assert Run(Start(0), prefix) == l5;

    RunAppend(Start(0), prefix, [0x67, 0x65]);
    assert prefix + [0x67, 0x65] == [0x72, 0x65, 0x76, 0x65, 0x6e, 0x67, 0x65];
    var ge := Lanes(0xc9949fe7, 0xc62c66a7);
    assert Absorb(Absorb(l5, 0x67), 0x65) == ge;
    assert Run(l5, [0x67, 0x65]) == ge;
    assert Finalize(ge) == Lanes(0x3b748385, 0xfbce64cc);

    RunAppend(Start(0), prefix, [0x75, 0x65]);
    assert prefix + [0x75, 0x65] == [0x72, 0x65, 0x76, 0x65, 0x6e, 0x75, 0x65];
    var ue := Lanes(0x74f585d5, 0xcc52fda5);
    assert Absorb(Absorb(l5, 0x75), 0x65) == ue;
    assert Run(l5, [0x75, 0x65]) == ue;
    assert Finalize(ue) == Lanes(0x8d13f93a, 0xfb1d8514);
  }

  /** The loop as written: an index walking the code units, both lanes updated in place, then
      the avalanche and the combination. */
  method Cyrb53(units: seq<CodeUnit>, seed: bv32) returns (r: nat)
    ensures r == Hash(units, seed)
    ensures r < Bound
  {
    var lanes := Start(seed);
    var i := 0;
    while i < |units|
      invariant 0 <= i <= |units|
      invariant lanes == Run(Start(seed), units[..i])
    {
      RunSnoc(Start(seed), units[..i], units[i]);
      assert units[..i + 1] == units[..i] + [units[i]];
      lanes := Absorb(lanes, units[i]);
      i := i + 1;
    }
    assert units[..i] == units;
    r := Combine(Finalize(lanes));
  }
}

=== FILE: discmaker.dfy ===
/** The music-disc page: a track name becomes a hash, the hash becomes a namespaced location, and
    the two export buttons turn the page state into the file trees of a data pack (the jukebox
    song) and a resource pack (the sound, the texture, the item model and their registrations).
    The pack format numbers are parameters: the page reads them from constants defined elsewhere. */
module DiscMaker {
  import opened Numerals
  import opened Cyrb53
  import opened ColorCodec
  import opened Layers
  import opened Packs

  const Ns := "discmaker"

  // ---------------------------------------------------------------------------------------------
  // The initial page

  const BackgroundTint := Rgb(0.318, 0.318, 0.318)

  /** The stack `init` builds: tile 0 tinted grey under tile 1 tinted white. */
  function InitialSession(): Session {
    var (s1, bg) := AddLayer(Empty, 0);
    var s2 := Session(Recolor(s1.layers, bg.Id(), BackgroundTint), s1.counter);
    var (s3, center) := AddLayer(s2, 1);
    Session(Recolor(s3.layers, center.Id(), White), s3.counter)
  }

  /** The overlay tiles offered below the stack. */
  function Palette(): seq<nat> {
    Tiles(2, 24)
  }

  lemma InitialStack()
    ensures var s := InitialSession();
      && Wf(s) && s.counter == 2 && |s.layers| == 2
      && s.layers[0].image == ImagePart(0, BackgroundTint) && s.layers[0].Id() == "layer-0"
      && s.layers[1].image == ImagePart(16, White) && s.layers[1].Id() == "layer-1"
    ensures |Palette()| == 22
    ensures forall i :: 0 <= i < |Palette()| ==> Palette()[i] == i + 2
  {
    var bg := Layer(ImagePart(0, White), 0);
    assert Empty.layers + [bg] == [bg];
    assert AddLayer(Empty, 0) == (Session([bg], 1), bg);
    var grey := bg.SetColor(BackgroundTint);
    assert Recolor([bg], bg.Id(), BackgroundTint) == [grey];
    var center := Layer(ImagePart(16, White), 1);
    assert [grey] + [center] == [grey, center];
    assert AddLayer(Session([grey], 1), 1) == (Session([grey, center], 2), center);
    assert Decimal(0) == "0" && Decimal(1) == "1";
    assert grey.Id() == "layer-0" && center.Id() == "layer-1";
    assert Recolor([grey, center], center.Id(), White) == [grey, center];
    assert InitialSession() == Session([grey, center], 2);
  }

  /** The icon sits inside the 128-pixel canvas: 12 pixels from the top and left edge, 4 from the
      bottom and right. */
  lemma PackIconGeometry(layers: seq<Layer>)
    ensures forall d :: d in PackIcon(layers, 112, 12) ==> Within(if d.Fill? then d.area else d.dst, 128)
    ensures forall i :: 1 <= i < |PackIcon(layers, 112, 12)| ==>
      PackIcon(layers, 112, 12)[i].Blit? && PackIcon(layers, 112, 12)[i].dst == Rect(12, 12, 112, 112)
    ensures forall i :: 1 <= i < |PackIcon(layers, 112, 12)| ==> !Centred(PackIcon(layers, 112, 12)[i].dst, 128)
  {
    PackIconInside(layers, 112, 12);
    forall i | 1 <= i < |PackIcon(layers, 112, 12)|
      ensures PackIcon(layers, 112, 12)[i].Blit? && PackIcon(layers, 112, 12)[i].dst == Rect(12, 12, 112, 112)
    {
      assert PackIcon(layers, 112, 12)[i] == Render(layers, 112, 12)[i - 1];
    }
  }

  // ---------------------------------------------------------------------------------------------
  // Naming

  /** `artist - title` when an artist is given, else the title alone. */
  function ComposeName(title: string, artist: string): string {
    if |artist| > 0 then artist + " - " + title else title
  }

  /** The song, the item model and the data-pack file all sit at `discmaker:<hash>`. */
  function SongLoc(h: string): Loc {
    Loc(Ns, [], h)
  }

  function SoundEventLoc(h: string): Loc {
    Loc(Ns, [], "music_disc." + h)
  }

  function RecordLoc(h: string): Loc {
    Loc(Ns, ["records"], h)
  }

  function TextureLoc(h: string): Loc {
    Loc(Ns, ["item"], h)
  }

  function TranslationKey(h: string): string {
    "record.discmaker." + h
  }

  /** The two texts the page shows: a `/give` command and the item as JSON. */
  datatype Commands = Commands(give: string, item: string)

  function ItemModelComponent(l: Loc): string {
    "minecraft:item_model=" + Quote(LocText(l))
  }

  function SongValue(l: Loc): string {
    "{song:" + Quote(LocText(l)) + "}"
  }

  function SongField(l: Loc): string {
    "\"song\": " + Quote(LocText(l))
  }

  function CommandsFor(l: Loc): Commands {
    Commands(
      "<p>/give @s minecraft:music_disc_cat[" + ItemModelComponent(l) + ","
        + ("minecraft:jukebox_playable=" + SongValue(l)) + "]</p>",
      "<p>{\"id\":\"minecraft:music_disc_cat\",\"count\":1,\"components\":{"
        + Member("minecraft:item_model", Quote(LocText(l)))
        + ",\"minecraft:jukebox_playable\": { " + SongField(l) + " }}}")
  }

  /** Both texts name the same location as the item model and as the jukebox song. */
  lemma CommandsShareLocation(l: Loc)
    ensures Embeds(CommandsFor(l).give, ItemModelComponent(l))
    ensures Embeds(CommandsFor(l).give, SongValue(l))
    ensures Embeds(CommandsFor(l).item, Member("minecraft:item_model", Quote(LocText(l))))
    ensures Embeds(CommandsFor(l).item, SongField(l))
  {
    var g0 := "<p>/give @s minecraft:music_disc_cat[";
    var g2 := "minecraft:jukebox_playable=" + SongValue(l);
    EmbedsItself(ItemModelComponent(l));
    EmbedsRight(g0, ItemModelComponent(l), ItemModelComponent(l));
    EmbedsLeft(g0 + ItemModelComponent(l), ",", ItemModelComponent(l));
    EmbedsLeft(g0 + ItemModelComponent(l) + ",", g2, ItemModelComponent(l));
    EmbedsLeft(g0 + ItemModelComponent(l) + "," + g2, "]</p>", ItemModelComponent(l));
    EmbedsItself(SongValue(l));
    EmbedsRight("minecraft:jukebox_playable=", SongValue(l), SongValue(l));
    EmbedsRight(g0 + ItemModelComponent(l) + ",", g2, SongValue(l));
    EmbedsLeft(g0 + ItemModelComponent(l) + "," + g2, "]</p>", SongValue(l));

    var i0 := "<p>{\"id\":\"minecraft:music_disc_cat\",\"count\":1,\"components\":{";
    var i1 := Member("minecraft:item_model", Quote(LocText(l)));
    var i2 := ",\"minecraft:jukebox_playable\": { ";
    EmbedsItself(i1);
    EmbedsRight(i0, i1, i1);
    EmbedsLeft(i0 + i1, i2, i1);
    EmbedsLeft(i0 + i1 + i2, SongField(l), i1);
    EmbedsLeft(i0 + i1 + i2 + SongField(l), " }}}", i1);
    EmbedsItself(SongField(l));
    EmbedsRight(i0 + i1 + i2, SongField(l), SongField(l));
    EmbedsLeft(i0 + i1 + i2 + SongField(l), " }}}", SongField(l));
  }

  /** `updateCommand`: compose the name, hash it (the `hash = ""` for an empty title is always
      overwritten), and show the commands for `discmaker:<hash>`. */
  function UpdateCommand(p: Page, title: string, artist: string): (r: (Page, Commands))
    ensures r.0.hash == Set(HashName(r.0.name))
    ensures r.0.makingResources == p.makingResources
    ensures |artist| > 0 ==> r.0.name == artist + " - " + title
    ensures |artist| == 0 ==> r.0.name == title
    ensures Ready(r.0) <==> |title| > 0 || |artist| > 0
    ensures r.1 == CommandsFor(SongLoc(HashText(r.0)))
  {
    var name := ComposeName(title, artist);
    var q := Page(name, Set(HashName(name)), p.makingResources);
    (q, CommandsFor(SongLoc(HashText(q))))
  }

  // ---------------------------------------------------------------------------------------------
  // The data pack

  function SongJson(h: string, comparator: string, duration: string): string {
    Object([
      Member("comparator_output", comparator),
      Member("description", Object([Member("translate", Quote(TranslationKey(h)))])),
      Member("length_in_seconds", duration),
      Member("sound_event", Object([Member("sound_id", Quote(LocText(SoundEventLoc(h))))]))])
  }

  /** The jukebox song registers the translation key, the comparator level, the length and the
      sound event. */
  lemma SongJsonFields(h: string, comparator: string, duration: string)
    ensures Embeds(SongJson(h, comparator, duration), Member("comparator_output", comparator))
    ensures Embeds(SongJson(h, comparator, duration), Member("translate", Quote(TranslationKey(h))))
    ensures Embeds(SongJson(h, comparator, duration), Member("length_in_seconds", duration))
    ensures Embeds(SongJson(h, comparator, duration), Member("sound_id", Quote(LocText(SoundEventLoc(h)))))
  {
    var description := [Member("translate", Quote(TranslationKey(h)))];
    var event := [Member("sound_id", Quote(LocText(SoundEventLoc(h))))];
    var outer := [
      Member("comparator_output", comparator),
      Member("description", Object(description)),
      Member("length_in_seconds", duration),
      Member("sound_event", Object(event))];
    ObjectEmbeds(outer, 0);
    NestedEmbeds(outer, 1, "description", description, 0);
    ObjectEmbeds(outer, 2);
    NestedEmbeds(outer, 3, "sound_event", event, 0);
  }

  /** The data pack's two files: the manifest and `data/discmaker/jukebox_song/<hash>.json`. */
  function DataPack(formats: PackFormats, name: string, h: string, comparator: string, duration: string)
    : (entries: seq<Entry>)
    ensures |entries| == 2 && DistinctPaths(entries)
    ensures entries[0].path == ["pack.mcmeta"] && entries[0].content.Text?
    ensures Embeds(entries[0].content.text, Member("pack_format", Decimal(formats.data)))
    ensures Embeds(entries[0].content.text, Member("description", Quote("DiscMaker Data: " + name)))
    ensures entries[1].path == ["data", "discmaker", "jukebox_song", h + ".json"]
    ensures entries[1].content == Text(SongJson(h, comparator, duration))
  {
    var entries := [
      Entry(["pack.mcmeta"], Text(Manifest(formats.data, "DiscMaker Data: " + name))),
      Entry(RegistryFile(SongLoc(h), "jukebox_song"), Text(SongJson(h, comparator, duration)))];
    entries
  }

  /** `downloadData`: refuse without a name and hash; a throwing codec step aborts the export;
      otherwise the duration is the probe's last log line, 300 when there was none. */
  function DownloadData(formats: PackFormats, p: Page, comparator: string, run: ProbeRun): (o: Outcome)
    ensures o.Refused? <==> !Ready(p)
    ensures o.Refused? ==> o.reason == NameNotSet
    ensures Ready(p) && run.ProbeFails? ==> o == Failed(run.failed)
    ensures Ready(p) && run.Probed? ==>
      o == Built(DataPack(formats, p.name, HashText(p), comparator, DurationText(run.log)))
  {
    if !Ready(p) then Refused(NameNotSet)
    else match run
      case ProbeFails(step) => Failed(step)
      case Probed(log) => Built(DataPack(formats, p.name, HashText(p), comparator, DurationText(log)))
  }

  // ---------------------------------------------------------------------------------------------
  // The resource pack

  function LangJson(h: string, name: string): string {
    Object([Member(TranslationKey(h), Quote(name))])
  }

  function SoundsJson(h: string): string {
    Object([Member(EventKey(SoundEventLoc(h)), Object([Member("sounds",
      Array([Object([Member("name", Quote(LocText(RecordLoc(h)))), Member("stream", "true")])]))]))])
  }

  function ModelJson(h: string): string {
    Object([
      Member("parent", Quote("minecraft:item/template_music_disc")),
      Member("textures", Object([Member("layer0", Quote(LocText(TextureLoc(h))))]))])
  }

  /** The resource pack's seven files, in the order the page adds them. */
  function ResourcePack(formats: PackFormats, name: string, h: string, layers: seq<Layer>, audio: seq<bv8>)
    : (entries: seq<Entry>)
    ensures |entries| == 7
    ensures entries[0].path == ["pack.mcmeta"] && entries[0].content.Text?
    ensures Embeds(entries[0].content.text, Member("pack_format", Decimal(formats.resource)))
    ensures Embeds(entries[0].content.text, Member("description", Quote("DiscMaker Resources: " + name)))
    ensures entries[1] == Entry(["pack.png"], Picture(128, PackIcon(layers, 112, 12)))
    ensures entries[2].path == ["assets", "discmaker", "lang", "en_us.json"]
    ensures entries[3] == Entry(["assets", "discmaker", "sounds", "records", h + ".ogg"], Audio(audio))
    ensures entries[4] == Entry(["assets", "discmaker", "textures", "item", h + ".png"], Picture(16, Render(layers, 16, 0)))
    ensures entries[5].path == ["assets", "discmaker", "sounds.json"]
    ensures entries[6].path == ["assets", "discmaker", "models", "item", h + ".json"]
  {
    [ Entry(["pack.mcmeta"], Text(Manifest(formats.resource, "DiscMaker Resources: " + name))),
      Entry(["pack.png"], Picture(128, PackIcon(layers, 112, 12))),
      Entry(LangFile(Ns), Text(LangJson(h, name))),
      Entry(SoundFile(RecordLoc(h)), Audio(audio)),
      Entry(TextureFile(TextureLoc(h)), Picture(16, Render(layers, 16, 0))),
      Entry(SoundsFile(Ns), Text(SoundsJson(h))),
      Entry(ItemModelFile(SongLoc(h)), Text(ModelJson(h))) ]
  }

  /** No file of the resource pack overwrites another. */
  lemma ResourcePathsDistinct(formats: PackFormats, name: string, h: string, layers: seq<Layer>, audio: seq<bv8>)
    ensures DistinctPaths(ResourcePack(formats, name, h, layers, audio))
  {
    var e := ResourcePack(formats, name, h, layers, audio);
    assert e[3].path[2] == "sounds" && e[4].path[2] == "textures" && e[6].path[2] == "models";
  }

  /** Every cross-reference resolves inside the two packs: the language file defines the key the
      song translates, `sounds.json` registers the song's sound event and points it at the emitted
      recording, and the item model's texture is the emitted picture. */
  lemma ReferencesResolve(formats: PackFormats, name: string, h: string, comparator: string,
                          duration: string, layers: seq<Layer>, audio: seq<bv8>)
    ensures var data := DataPack(formats, name, h, comparator, duration);
            var res := ResourcePack(formats, name, h, layers, audio);
      && Embeds(data[1].content.text, Member("translate", Quote(TranslationKey(h))))
      && res[2].path == LangFile(Ns) && res[2].content.Text?
      && Embeds(res[2].content.text, Member(TranslationKey(h), Quote(name)))
      && Embeds(data[1].content.text, Member("sound_id", Quote(LocText(SoundEventLoc(h)))))
      && res[5].path == SoundsFile(SoundEventLoc(h).ns) && res[5].content.Text?
      && Embeds(res[5].content.text, Quote(EventKey(SoundEventLoc(h))) + ":")
      && Embeds(res[5].content.text, Member("name", Quote(LocText(RecordLoc(h)))))
      && res[3].path == SoundFile(RecordLoc(h)) && res[3].content.Audio?
      && res[6].path == ItemModelFile(SongLoc(h)) && res[6].content.Text?
      && Embeds(res[6].content.text, Member("layer0", Quote(LocText(TextureLoc(h)))))
      && res[4].path == TextureFile(TextureLoc(h)) && res[4].content.Picture?
  {
    SongJsonFields(h, comparator, duration);
    ObjectEmbeds([Member(TranslationKey(h), Quote(name))], 0);
    SoundsReferences(h);
    ModelReferences(h);
  }

  lemma SoundsReferences(h: string)
    ensures Embeds(SoundsJson(h), Quote(EventKey(SoundEventLoc(h))) + ":")
    ensures Embeds(SoundsJson(h), Member("name", Quote(LocText(RecordLoc(h)))))
  {
    var record := [Member("name", Quote(LocText(RecordLoc(h)))), Member("stream", "true")];
    var sounds := [Member("sounds", Array([Object(record)]))];
    var events := [Member(EventKey(SoundEventLoc(h)), Object(sounds))];
    ObjectEmbeds(events, 0);
    MemberEmbeds(EventKey(SoundEventLoc(h)), Object(sounds));
    EmbedsTrans(SoundsJson(h), events[0], Quote(EventKey(SoundEventLoc(h))) + ":");
    NestedEmbeds(events, 0, EventKey(SoundEventLoc(h)), sounds, 0);
    MemberEmbeds("sounds", Array([Object(record)]));
    ArrayEmbeds([Object(record)], 0);
    ObjectEmbeds(record, 0);
    EmbedsTrans(SoundsJson(h), sounds[0], Array([Object(record)]));
    EmbedsTrans(SoundsJson(h), Array([Object(record)]), Object(record));
    EmbedsTrans(SoundsJson(h), Object(record), record[0]);
  }

  lemma ModelReferences(h: string)
    ensures Embeds(ModelJson(h), Member("layer0", Quote(LocText(TextureLoc(h)))))
  {
    var textures := [Member("layer0", Quote(LocText(TextureLoc(h))))];
    NestedEmbeds([Member("parent", Quote("minecraft:item/template_music_disc")),
                  Member("textures", Object(textures))], 1, "textures", textures, 0);
  }

  /** The location the commands show is the one both packs serve: the data pack registers it as
      a jukebox song and the resource pack holds its item model. */
  lemma CommandsResolve(formats: PackFormats, p: Page, title: string, artist: string,
                        comparator: string, duration: string, layers: seq<Layer>, audio: seq<bv8>)
    ensures var (q, commands) := UpdateCommand(p, title, artist);
            var l := SongLoc(HashText(q));
      && Embeds(commands.give, ItemModelComponent(l)) && Embeds(commands.give, SongValue(l))
      && Emits(DataPack(formats, q.name, HashText(q), comparator, duration), RegistryFile(l, "jukebox_song"))
      && Emits(ResourcePack(formats, q.name, HashText(q), layers, audio), ItemModelFile(l))
  {
    var (q, commands) := UpdateCommand(p, title, artist);
    var l := SongLoc(HashText(q));
    CommandsShareLocation(l);
    assert DataPack(formats, q.name, HashText(q), comparator, duration)[1].path == RegistryFile(l, "jukebox_song");
    assert ResourcePack(formats, q.name, HashText(q), layers, audio)[6].path == ItemModelFile(l);
  }

  /** `downloadResources`: the guard decides first; once past it the flag is raised and, whether
      the build completes or a codec step throws, lowered again. */
  function DownloadResources(formats: PackFormats, p: Page, layers: seq<Layer>, run: TranscodeRun)
    : (r: (Page, Outcome))
    ensures r.1.Refused? <==> p.makingResources || !Ready(p)
    ensures r.1 == Refused(AlreadyRunning) <==> p.makingResources
    ensures r.1.Refused? ==> r.0 == p
    ensures !r.1.Refused? ==> r.0 == p.(makingResources := false)
    ensures !r.1.Refused? && run.TranscodeFails? ==> r.1 == Failed(run.failed)
    ensures !r.1.Refused? && run.Transcoded? ==>
      r.1 == Built(ResourcePack(formats, p.name, HashText(p), layers, run.audio))
  {
    var (q, refusal) := BeginResources(p);
    if refusal.Some? then (q, Refused(refusal.value))
    else match run
      case TranscodeFails(step) => (EndResources(q), Failed(step))
      case Transcoded(audio) => (EndResources(q), Built(ResourcePack(formats, q.name, HashText(q), layers, audio)))
  }

  /** Distinct hashes never share a file: the song's data file, the recording, the texture and the
      item model are each named by the decimal hash alone. */
  lemma FilesSeparateHashes(a: nat, b: nat)
    requires a != b
    ensures RegistryFile(SongLoc(Decimal(a)), "jukebox_song") != RegistryFile(SongLoc(Decimal(b)), "jukebox_song")
    ensures SoundFile(RecordLoc(Decimal(a))) != SoundFile(RecordLoc(Decimal(b)))
    ensures TextureFile(TextureLoc(Decimal(a))) != TextureFile(TextureLoc(Decimal(b)))
    ensures ItemModelFile(SongLoc(Decimal(a))) != ItemModelFile(SongLoc(Decimal(b)))
  {
    var da, db := Decimal(a), Decimal(b);
    if da + ".json" == db + ".json" {
      SuffixedDecimalInjective(".json", a, b);
    }
    if da + ".ogg" == db + ".ogg" {
      SuffixedDecimalInjective(".ogg", a, b);
    }
    if da + ".png" == db + ".png" {
      SuffixedDecimalInjective(".png", a, b);
    }
    assert RegistryFile(SongLoc(da), "jukebox_song")[3] == da + ".json";
    assert RegistryFile(SongLoc(db), "jukebox_song")[3] == db + ".json";
    assert SoundFile(RecordLoc(da))[4] == da + ".ogg" && SoundFile(RecordLoc(db))[4] == db + ".ogg";
    assert TextureFile(TextureLoc(da))[4] == da + ".png" && TextureFile(TextureLoc(db))[4] == db + ".png";
    assert ItemModelFile(SongLoc(da))[4] == da + ".json" && ItemModelFile(SongLoc(db))[4] == db + ".json";
  }
}

=== FILE: hornmaker.dfy ===
/** The goat-horn page: the same pipeline as the music-disc page with a sound name instead of a
    track and artist, an instrument instead of a jukebox song, and two item models (idle and
    tooting) sharing one texture. */
module HornMaker {
  import opened Numerals
  import opened Cyrb53
  import opened ColorCodec
  import opened Layers
  import opened Packs

  const Ns := "hornmaker"

  // ---------------------------------------------------------------------------------------------
  // The initial page

  const BaseTint := Rgb(0.722, 0.663, 0.6)

  /** The stack `init` builds: tile 0 alone, tinted horn-coloured. */
  function InitialSession(): Session {
    var (s1, base) := AddLayer(Empty, 0);
    Session(Recolor(s1.layers, base.Id(), BaseTint), s1.counter)
  }

  /** The overlay tiles offered below the stack. */
  function Palette(): seq<nat> {
    Tiles(1, 4)
  }

  lemma InitialStack()
    ensures var s := InitialSession();
      && Wf(s) && s.counter == 1 && |s.layers| == 1
      && s.layers[0].image == ImagePart(0, BaseTint) && s.layers[0].Id() == "layer-0"
    ensures Palette() == [1, 2, 3]
  {
    var base := Layer(ImagePart(0, White), 0);
    assert Empty.layers + [base] == [base];
    assert AddLayer(Empty, 0) == (Session([base], 1), base);
    assert Recolor([base], base.Id(), BaseTint) == [base.SetColor(BaseTint)];
    assert Decimal(0) == "0";
    assert InitialSession() == Session([base.SetColor(BaseTint)], 1);
  }

  /** The icon is centred: an 8-pixel border on every side of the 128-pixel canvas. */
  lemma PackIconGeometry(layers: seq<Layer>)
    ensures forall d :: d in PackIcon(layers, 112, 8) ==> Within(if d.Fill? then d.area else d.dst, 128)
    ensures forall i :: 1 <= i < |PackIcon(layers, 112, 8)| ==>
      PackIcon(layers, 112, 8)[i].Blit? && PackIcon(layers, 112, 8)[i].dst == Rect(8, 8, 112, 112)
    ensures forall i :: 1 <= i < |PackIcon(layers, 112, 8)| ==> Centred(PackIcon(layers, 112, 8)[i].dst, 128)
  {
    PackIconInside(layers, 112, 8);
    forall i | 1 <= i < |PackIcon(layers, 112, 8)|
      ensures PackIcon(layers, 112, 8)[i].Blit? && PackIcon(layers, 112, 8)[i].dst == Rect(8, 8, 112, 112)
    {
      assert PackIcon(layers, 112, 8)[i] == Render(layers, 112, 8)[i - 1];
    }
  }

  // ---------------------------------------------------------------------------------------------
  // Naming

  /** The instrument and the item model both sit at `hornmaker:<hash>`. */
  function InstrumentLoc(h: string): Loc {
    Loc(Ns, [], h)
  }

  function SoundEventLoc(h: string): Loc {
    Loc(Ns, [], "goat_horn." + h)
  }

  function RecordLoc(h: string): Loc {
    Loc(Ns, ["goat_horn"], h)
  }

  function TextureLoc(h: string): Loc {
    Loc(Ns, ["item"], h)
  }

  /** The model the item switches to while the horn is being blown. */
  function TootingLoc(h: string): Loc {
    Loc(Ns, ["item"], h + "_tooting")
  }

  function TranslationKey(h: string): string {
    "instrument.hornmaker." + h
  }

  /** The two texts the page shows: a `/give` command and the item as JSON. */
  datatype Commands = Commands(give: string, item: string)

  /** One item component of the `/give` syntax, naming a location. */
  function Component(kind: string, l: Loc): string {
    kind + "=" + Quote(LocText(l))
  }

  function Components(l: Loc): seq<string> {
    [Member("minecraft:item_model", Quote(LocText(l))), Member("minecraft:instrument", Quote(LocText(l)))]
  }

  function CommandsFor(l: Loc): Commands {
    Commands(
      "<p>/give @s minecraft:goat_horn[" + Component("minecraft:item_model", l) + ","
        + Component("minecraft:instrument", l) + "]</p>",
      "<p>{\"id\":\"minecraft:goat_horn\",\"count\":1,\"components\":" + Object(Components(l)) + "}")
  }

  /** Both texts name the same location as the item model and as the instrument. */
  lemma CommandsShareLocation(l: Loc)
    ensures Embeds(CommandsFor(l).give, Component("minecraft:item_model", l))
    ensures Embeds(CommandsFor(l).give, Component("minecraft:instrument", l))
    ensures Embeds(CommandsFor(l).item, Member("minecraft:item_model", Quote(LocText(l))))
    ensures Embeds(CommandsFor(l).item, Member("minecraft:instrument", Quote(LocText(l))))
  {
    var g0 := "<p>/give @s minecraft:goat_horn[";
    var model, instrument := Component("minecraft:item_model", l), Component("minecraft:instrument", l);
    EmbedsItself(model);
    EmbedsRight(g0, model, model);
    EmbedsLeft(g0 + model, ",", model);
    EmbedsLeft(g0 + model + ",", instrument, model);
    EmbedsLeft(g0 + model + "," + instrument, "]</p>", model);
    EmbedsItself(instrument);
    EmbedsRight(g0 + model + ",", instrument, instrument);
    EmbedsLeft(g0 + model + "," + instrument, "]</p>", instrument);

    var i0 := "<p>{\"id\":\"minecraft:goat_horn\",\"count\":1,\"components\":";
    ObjectEmbeds(Components(l), 0);
    ObjectEmbeds(Components(l), 1);
    EmbedsRight(i0, Object(Components(l)), Components(l)[0]);
    EmbedsRight(i0, Object(Components(l)), Components(l)[1]);
    EmbedsLeft(i0 + Object(Components(l)), "}", Components(l)[0]);
    EmbedsLeft(i0 + Object(Components(l)), "}", Components(l)[1]);
  }

  /** `updateCommand`: the sound name is the title alone; hash it (the `hash = ""` for an empty
      name is always overwritten) and show the commands for `hornmaker:<hash>`. */
  function UpdateCommand(p: Page, title: string): (r: (Page, Commands))
    ensures r.0.name == title
    ensures r.0.hash == Set(HashName(title))
    ensures r.0.makingResources == p.makingResources
    ensures Ready(r.0) <==> |title| > 0
    ensures r.1 == CommandsFor(InstrumentLoc(HashText(r.0)))
  {
    var q := Page(title, Set(HashName(title)), p.makingResources);
    (q, CommandsFor(InstrumentLoc(HashText(q))))
  }

  // ---------------------------------------------------------------------------------------------
  // The data pack

  function InstrumentJson(h: string, range: string, duration: string): string {
    Object([
      Member("range", range),
      Member("description", Object([Member("translate", Quote(TranslationKey(h)))])),
      Member("use_duration", duration),
      Member("sound_event", Object([Member("sound_id", Quote(LocText(SoundEventLoc(h))))]))])
  }

  /** The instrument registers the range, the translation key, the use duration and the sound
      event. */
  lemma InstrumentJsonFields(h: string, range: string, duration: string)
    ensures Embeds(InstrumentJson(h, range, duration), Member("range", range))
    ensures Embeds(InstrumentJson(h, range, duration), Member("translate", Quote(TranslationKey(h))))
    ensures Embeds(InstrumentJson(h, range, duration), Member("use_duration", duration))
    ensures Embeds(InstrumentJson(h, range, duration), Member("sound_id", Quote(LocText(SoundEventLoc(h)))))
  {
    var description := [Member("translate", Quote(TranslationKey(h)))];
    var event := [Member("sound_id", Quote(LocText(SoundEventLoc(h))))];
    var outer := [
      Member("range", range),
      Member("description", Object(description)),
      Member("use_duration", duration),
      Member("sound_event", Object(event))];
    ObjectEmbeds(outer, 0);
    NestedEmbeds(outer, 1, "description", description, 0);
    ObjectEmbeds(outer, 2);
    NestedEmbeds(outer, 3, "sound_event", event, 0);
  }

  /** The data pack's two files: the manifest and `data/hornmaker/instrument/<hash>.json`. */
  function DataPack(formats: PackFormats, name: string, h: string, range: string, duration: string)
    : (entries: seq<Entry>)
    ensures |entries| == 2 && DistinctPaths(entries)
    ensures entries[0].path == ["pack.mcmeta"] && entries[0].content.Text?
    ensures Embeds(entries[0].content.text, Member("pack_format", Decimal(formats.data)))
    ensures Embeds(entries[0].content.text, Member("description", Quote("HornMaker Data: " + name)))
    ensures entries[1].path == ["data", "hornmaker", "instrument", h + ".json"]
    ensures entries[1].content == Text(InstrumentJson(h, range, duration))
  {
    [ Entry(["pack.mcmeta"], Text(Manifest(formats.data, "HornMaker Data: " + name))),
      Entry(RegistryFile(InstrumentLoc(h), "instrument"), Text(InstrumentJson(h, range, duration))) ]
  }

  /** `downloadData`: refuse without a name and hash; a throwing codec step aborts the export;
      otherwise the use duration is the probe's last log line, 300 when there was none. */
  function DownloadData(formats: PackFormats, p: Page, range: string, run: ProbeRun): (o: Outcome)
    ensures o.Refused? <==> !Ready(p)
    ensures o.Refused? ==> o.reason == NameNotSet
    ensures Ready(p) && run.ProbeFails? ==> o == Failed(run.failed)
    ensures Ready(p) && run.Probed? ==>
      o == Built(DataPack(formats, p.name, HashText(p), range, DurationText(run.log)))
  {
    if !Ready(p) then Refused(NameNotSet)
    else match run
      case ProbeFails(step) => Failed(step)
      case Probed(log) => Built(DataPack(formats, p.name, HashText(p), range, DurationText(log)))
  }

  // ---------------------------------------------------------------------------------------------
  // The resource pack

  function LangJson(h: string, name: string): string {
    Object([Member(TranslationKey(h), Quote(name))])
  }

  function SoundsJson(h: string): string {
    Object([Member(EventKey(SoundEventLoc(h)), Object([
      Member("subtitle", Quote("subtitles.item.goat_horn.play")),
      Member("sounds", Array([Object([Member("name", Quote(LocText(RecordLoc(h))))])]))]))])
  }

  function TextureMember(h: string): string {
    Member("textures", Object([Member("layer0", Quote(LocText(TextureLoc(h))))]))
  }

  /** The override switching to the tooting model while the `tooting` predicate is 1. */
  function Override(h: string): string {
    Object([Member("predicate", Object([Member("tooting", "1")])), Member("model", Quote(LocText(TootingLoc(h))))])
  }

  function ModelJson(h: string): string {
    Object([
      Member("parent", Quote("minecraft:item/goat_horn")),
      TextureMember(h),
      Member("overrides", Array([Override(h)]))])
  }

  function TootingModelJson(h: string): string {
    Object([Member("parent", Quote("minecraft:item/tooting_goat_horn")), TextureMember(h)])
  }

  /** The resource pack's eight files, in the order the page adds them. */
  function ResourcePack(formats: PackFormats, name: string, h: string, layers: seq<Layer>, audio: seq<bv8>)
    : (entries: seq<Entry>)
    ensures |entries| == 8
    ensures entries[0].path == ["pack.mcmeta"] && entries[0].content.Text?
    ensures Embeds(entries[0].content.text, Member("pack_format", Decimal(formats.resource)))
    ensures Embeds(entries[0].content.text, Member("description", Quote("HornMaker Resources: " + name)))
    ensures entries[1] == Entry(["pack.png"], Picture(128, PackIcon(layers, 112, 8)))
    ensures entries[2].path == ["assets", "hornmaker", "lang", "en_us.json"]
    ensures entries[3] == Entry(["assets", "hornmaker", "sounds", "goat_horn", h + ".ogg"], Audio(audio))
    ensures entries[4] == Entry(["assets", "hornmaker", "textures", "item", h + ".png"], Picture(16, Render(layers, 16, 0)))
    ensures entries[5].path == ["assets", "hornmaker", "sounds.json"]
    ensures entries[6].path == ["assets", "hornmaker", "models", "item", h + ".json"]
    ensures entries[7].path == ["assets", "hornmaker", "models", "item", h + "_tooting" + ".json"]
  {
    [ Entry(["pack.mcmeta"], Text(Manifest(formats.resource, "HornMaker Resources: " + name))),
      Entry(["pack.png"], Picture(128, PackIcon(layers, 112, 8))),
      Entry(LangFile(Ns), Text(LangJson(h, name))),
      Entry(SoundFile(RecordLoc(h)), Audio(audio)),
      Entry(TextureFile(TextureLoc(h)), Picture(16, Render(layers, 16, 0))),
      Entry(SoundsFile(Ns), Text(SoundsJson(h))),
      Entry(ItemModelFile(InstrumentLoc(h)), Text(ModelJson(h))),
      Entry(ModelFile(TootingLoc(h)), Text(TootingModelJson(h))) ]
  }

  /** No file of the resource pack overwrites another; in particular the two models differ. */
  lemma ResourcePathsDistinct(formats: PackFormats, name: string, h: string, layers: seq<Layer>, audio: seq<bv8>)
    ensures DistinctPaths(ResourcePack(formats, name, h, layers, audio))
  {
    var e := ResourcePack(formats, name, h, layers, audio);
    assert e[3].path[2] == "sounds" && e[4].path[2] == "textures" && e[6].path[2] == "models";
    assert (h + ".json")[|h|] == '.' && (h + "_tooting" + ".json")[|h|] == '_';
    assert e[6].path[4] != e[7].path[4];
  }

  /** Every cross-reference resolves inside the two packs: the language file defines the key the
      instrument translates, `sounds.json` registers the instrument's sound event and points it at
      the emitted recording, both models use the emitted texture, and the override names the
      emitted tooting model. */
  lemma ReferencesResolve(formats: PackFormats, name: string, h: string, range: string,
                          duration: string, layers: seq<Layer>, audio: seq<bv8>)
    ensures var data := DataPack(formats, name, h, range, duration);
            var res := ResourcePack(formats, name, h, layers, audio);
      && Embeds(data[1].content.text, Member("translate", Quote(TranslationKey(h))))
      && res[2].path == LangFile(Ns) && res[2].content.Text?
      && Embeds(res[2].content.text, Member(TranslationKey(h), Quote(name)))
      && Embeds(data[1].content.text, Member("sound_id", Quote(LocText(SoundEventLoc(h)))))
      && res[5].path == SoundsFile(SoundEventLoc(h).ns) && res[5].content.Text?
      && Embeds(res[5].content.text, Quote(EventKey(SoundEventLoc(h))) + ":")
      && Embeds(res[5].content.text, Member("name", Quote(LocText(RecordLoc(h)))))
      && res[3].path == SoundFile(RecordLoc(h)) && res[3].content.Audio?
      && res[4].path == TextureFile(TextureLoc(h)) && res[4].content.Picture?
      && res[6].content.Text? && res[7].content.Text?
      && Embeds(res[6].content.text, Member("layer0", Quote(LocText(TextureLoc(h)))))
      && Embeds(res[7].content.text, Member("layer0", Quote(LocText(TextureLoc(h)))))
      && Embeds(res[6].content.text, Member("tooting", "1"))
      && Embeds(res[6].content.text, Member("model", Quote(LocText(TootingLoc(h)))))
      && res[7].path == ModelFile(TootingLoc(h))
  {
    InstrumentJsonFields(h, range, duration);
    ObjectEmbeds([Member(TranslationKey(h), Quote(name))], 0);
    SoundsReferences(h);
    ModelReferences(h);
  }

  lemma SoundsReferences(h: string)
    ensures Embeds(SoundsJson(h), Quote(EventKey(SoundEventLoc(h))) + ":")
    ensures Embeds(SoundsJson(h), Member("name", Quote(LocText(RecordLoc(h)))))
  {
    var record := [Member("name", Quote(LocText(RecordLoc(h))))];
    var event := [Member("subtitle", Quote("subtitles.item.goat_horn.play")), Member("sounds", Array([Object(record)]))];
    var events := [Member(EventKey(SoundEventLoc(h)), Object(event))];
    ObjectEmbeds(events, 0);
    MemberEmbeds(EventKey(SoundEventLoc(h)), Object(event));
    EmbedsTrans(SoundsJson(h), events[0], Quote(EventKey(SoundEventLoc(h))) + ":");
    NestedEmbeds(events, 0, EventKey(SoundEventLoc(h)), event, 1);
    MemberEmbeds("sounds", Array([Object(record)]));
    ArrayEmbeds([Object(record)], 0);
    ObjectEmbeds(record, 0);
    EmbedsTrans(SoundsJson(h), event[1], Array([Object(record)]));
    EmbedsTrans(SoundsJson(h), Array([Object(record)]), Object(record));
    EmbedsTrans(SoundsJson(h), Object(record), record[0]);
  }

  lemma ModelReferences(h: string)
    ensures Embeds(ModelJson(h), Member("layer0", Quote(LocText(TextureLoc(h)))))
    ensures Embeds(TootingModelJson(h), Member("layer0", Quote(LocText(TextureLoc(h)))))
    ensures Embeds(ModelJson(h), Member("tooting", "1"))
    ensures Embeds(ModelJson(h), Member("model", Quote(LocText(TootingLoc(h)))))
  {
    var textures := [Member("layer0", Quote(LocText(TextureLoc(h))))];
    var model := [Member("parent", Quote("minecraft:item/goat_horn")), TextureMember(h), Member("overrides", Array([Override(h)]))];
    NestedEmbeds(model, 1, "textures", textures, 0);
    NestedEmbeds([Member("parent", Quote("minecraft:item/tooting_goat_horn")), TextureMember(h)], 1, "textures", textures, 0);

    var tooting := [Member("tooting", "1")];
    var overrideMembers := [Member("predicate", Object(tooting)), Member("model", Quote(LocText(TootingLoc(h))))];
    ObjectEmbeds(model, 2);
    MemberEmbeds("overrides", Array([Override(h)]));
    ArrayEmbeds([Override(h)], 0);
    EmbedsTrans(ModelJson(h), model[2], Array([Override(h)]));
    EmbedsTrans(ModelJson(h), Array([Override(h)]), Override(h));
    NestedEmbeds(overrideMembers, 0, "predicate", tooting, 0);
    ObjectEmbeds(overrideMembers, 1);
    EmbedsTrans(ModelJson(h), Override(h), tooting[0]);
    EmbedsTrans(ModelJson(h), Override(h), overrideMembers[1]);
  }

  /** The location the commands show is the one both packs serve: the data pack registers it as
      an instrument and the resource pack holds its item model. */
  lemma CommandsResolve(formats: PackFormats, p: Page, title: string, range: string,
                        duration: string, layers: seq<Layer>, audio: seq<bv8>)
    ensures var (q, commands) := UpdateCommand(p, title);
            var l := InstrumentLoc(HashText(q));
      && Embeds(commands.give, Component("minecraft:item_model", l))
      && Embeds(commands.give, Component("minecraft:instrument", l))
      && Emits(DataPack(formats, q.name, HashText(q), range, duration), RegistryFile(l, "instrument"))
      && Emits(ResourcePack(formats, q.name, HashText(q), layers, audio), ItemModelFile(l))
  {
    var (q, commands) := UpdateCommand(p, title);
    var l := InstrumentLoc(HashText(q));
    CommandsShareLocation(l);
    assert DataPack(formats, q.name, HashText(q), range, duration)[1].path == RegistryFile(l, "instrument");
    assert ResourcePack(formats, q.name, HashText(q), layers, audio)[6].path == ItemModelFile(l);
  }

  /** `downloadResources`: the guard decides first; once past it the flag is raised and, whether
      the build completes or a codec step throws, lowered again. */
  function DownloadResources(formats: PackFormats, p: Page, layers: seq<Layer>, run: TranscodeRun)
    : (r: (Page, Outcome))
    ensures r.1.Refused? <==> p.makingResources || !Ready(p)
    ensures r.1 == Refused(AlreadyRunning) <==> p.makingResources
    ensures r.1.Refused? ==> r.0 == p
    ensures !r.1.Refused? ==> r.0 == p.(makingResources := false)
    ensures !r.1.Refused? && run.TranscodeFails? ==> r.1 == Failed(run.failed)
    ensures !r.1.Refused? && run.Transcoded? ==>
      r.1 == Built(ResourcePack(formats, p.name, HashText(p), layers, run.audio))
  {
    var (q, refusal) := BeginResources(p);
    if refusal.Some? then (q, Refused(refusal.value))
    else match run
      case TranscodeFails(step) => (EndResources(q), Failed(step))
      case Transcoded(audio) => (EndResources(q), Built(ResourcePack(formats, q.name, HashText(q), layers, audio)))
  }
}

=== FILE: layers.dfy ===
/** The layer compositing engine: tintable tiles of a 16-pixel-wide sprite sheet, a stack of them in
    insertion order, and rendering as the list of canvas calls it issues. Pixels are not modelled;
    a call carries its source and destination rectangles and the colour matrix of its filter. */
module Layers {
  import opened ColorCodec
  import opened Numerals

  /** Tiles are 16 by 16 pixels, stacked vertically in the sprite sheet. */
  const TileSize: nat := 16

  datatype Rect = Rect(x: int, y: int, w: int, h: int)

  /** One canvas call: a solid fill, or a `drawImage` of a sprite-sheet region through a
      colour-matrix filter (20 values, 4 rows of 5, row-major, as `feColorMatrix` reads them). */
  datatype Draw =
    | Fill(area: Rect, style: string)
    | Blit(src: Rect, dst: Rect, matrix: seq<real>)

  /** A pixel's channels in [0, 1] as the filter sees them, alpha last. */
  datatype Pixel = Pixel(r: real, g: real, b: real, a: real)

  /** A sprite-sheet tile and its tint: `offset` is the tile's row in the sheet. */
  datatype ImagePart = ImagePart(offset: nat, color: Rgb)

  /** A new part shows tile `index` untinted. */
  function NewImagePart(index: nat): ImagePart {
    ImagePart(index * TileSize, White)
  }

  /** A layer: its image part and the counter value it was created with. */
  datatype Layer = Layer(image: ImagePart, serial: nat) {
    /** The identity the page uses for removal and for its list entry. */
    function Id(): string {
      LayerId(serial)
    }

    function SetColor(c: Rgb): (l: Layer)
      ensures l.image.color == c && l.image.offset == image.offset && l.Id() == Id()
    {
      this.(image := image.(color := c))
    }
  }

  function LayerId(serial: nat): string {
    "layer-" + Decimal(serial)
  }

  /** The tile indices `lo`, ..., `hi - 1`, as a counting loop offers them. */
  function Tiles(lo: nat, hi: nat): (t: seq<nat>)
    ensures |t| == if lo <= hi then hi - lo else 0
    ensures forall i :: 0 <= i < |t| ==> t[i] == lo + i
    decreases hi - lo
  {
    if lo >= hi then [] else [lo] + Tiles(lo + 1, hi)
  }

  /** The layer stack with the page-wide counter that numbers every layer ever constructed. */
  datatype Session = Session(layers: seq<Layer>, counter: nat)

  const Empty := Session([], 0)

  // ---------------------------------------------------------------------------------------------
  // Rendering

  /** The filter values for a tint, in the order the matrix text lists them: the tint's three
      factors each followed by four zeros, then the alpha row `0 0 0 1 0`. Read as 4 rows of 5,
      the green and blue factors stand in the first column. */
  function ColorMatrix(c: Rgb): (m: seq<real>)
    ensures |m| == 20
    ensures m[0] == c.r && m[5] == c.g && m[10] == c.b && m[18] == 1.0
    ensures forall k :: 0 <= k < 20 && k != 0 && k != 5 && k != 10 && k != 18 ==> m[k] == 0.0
  {
    [c.r, 0.0, 0.0, 0.0, 0.0,
     c.g, 0.0, 0.0, 0.0, 0.0,
     c.b, 0.0, 0.0, 0.0, 0.0,
     0.0, 0.0, 0.0, 1.0, 0.0]
  }

  /** What a `feColorMatrix` of type `matrix` does to one pixel: each output channel is a row of
      the matrix dotted with (r, g, b, a, 1). */
  function ApplyMatrix(m: seq<real>, p: Pixel): Pixel
    requires |m| == 20
  {
    Pixel(m[0] * p.r + m[1] * p.g + m[2] * p.b + m[3] * p.a + m[4],
          m[5] * p.r + m[6] * p.g + m[7] * p.b + m[8] * p.a + m[9],
          m[10] * p.r + m[11] * p.g + m[12] * p.b + m[13] * p.a + m[14],
          m[15] * p.r + m[16] * p.g + m[17] * p.b + m[18] * p.a + m[19])
  }

  /** The tint filter scales the pixel's red channel by each of the tint's factors and keeps
      alpha: a white tint turns (R, G, B, A) into (R, R, R, A). */
  lemma TintReadsRed(c: Rgb, p: Pixel)
    ensures ApplyMatrix(ColorMatrix(c), p) == Pixel(c.r * p.r, c.g * p.r, c.b * p.r, p.a)
    ensures ApplyMatrix(ColorMatrix(White), p) == Pixel(p.r, p.r, p.r, p.a)
  {
  }

  /** The pixel's green and blue channels never reach the output: two pixels that agree on red
      and alpha are filtered alike. */
  lemma TintIgnoresGreenBlue(c: Rgb, p: Pixel, q: Pixel)
    requires p.r == q.r && p.a == q.a
    ensures ApplyMatrix(ColorMatrix(c), p) == ApplyMatrix(ColorMatrix(c), q)
  {
    TintReadsRed(c, p);
    TintReadsRed(c, q);
  }

  /** On a grey pixel the filter is a channel-wise tint, and a white tint changes nothing. */
  lemma TintOnGrey(c: Rgb, p: Pixel)
    requires p.r == p.g == p.b
    ensures ApplyMatrix(ColorMatrix(c), p) == Pixel(c.r * p.r, c.g * p.g, c.b * p.b, p.a)
    ensures ApplyMatrix(ColorMatrix(White), p) == p
  {
    TintReadsRed(c, p);
    TintReadsRed(White, p);
  }

  /** The call one layer issues: its 16 by 16 tile, scaled to a square of side `size` at
      (`offset`, `offset`), through its tint's matrix. */
  function LayerDraw(l: Layer, size: int, offset: int): Draw {
    Blit(Rect(0, l.image.offset, TileSize, TileSize), Rect(offset, offset, size, size), ColorMatrix(l.image.color))
  }

  /** Rendering the stack: one call per layer, bottom layer first. */
  function Render(layers: seq<Layer>, size: int, offset: int): (draws: seq<Draw>)
    ensures |draws| == |layers|
    ensures forall i :: 0 <= i < |layers| ==> draws[i] == LayerDraw(layers[i], size, offset)
  {
    if layers == [] then [] else [LayerDraw(layers[0], size, offset)] + Render(layers[1..], size, offset)
  }

  /** Every call of a render copies a whole tile to the same square, through the matrix of the
      layer's tint. */
  lemma RenderGeometry(layers: seq<Layer>, size: int, offset: int, i: nat)
    requires i < |layers|
    ensures Render(layers, size, offset)[i].Blit?
    ensures Render(layers, size, offset)[i].src == Rect(0, layers[i].image.offset, 16, 16)
    ensures Render(layers, size, offset)[i].dst == Rect(offset, offset, size, size)
    ensures var m := Render(layers, size, offset)[i].matrix;
              |m| == 20 && m[0] == layers[i].image.color.r && m[5] == layers[i].image.color.g
              && m[10] == layers[i].image.color.b && m[18] == 1.0
  {
  }

  /** Rendering distributes over stacking: the calls of a stack are those of its lower part
      followed by those of its upper part. */
  lemma RenderAppend(a: seq<Layer>, b: seq<Layer>, size: int, offset: int)
    ensures Render(a + b, size, offset) == Render(a, size, offset) + Render(b, size, offset)
  {
    var whole, parts := Render(a + b, size, offset), Render(a, size, offset) + Render(b, size, offset);
    assert |whole| == |parts|;
    forall i | 0 <= i < |whole|
      ensures whole[i] == parts[i]
    {
      if i < |a| {
        assert (a + b)[i] == a[i];
      } else {
        assert (a + b)[i] == b[i - |a|];
      }
    }
  }

  /** The 128 by 128 pack icon: a black fill, then the stack at `size` from (`inset`, `inset`). */
  function PackIcon(layers: seq<Layer>, size: int, inset: int): (draws: seq<Draw>)
    ensures |draws| == |layers| + 1
    ensures draws[0].Fill? && draws[0].style == "#000000" && draws[0].area == Rect(0, 0, 128, 128)
    ensures forall i :: 0 <= i < |layers| ==>
      && draws[i + 1].Blit?
      && draws[i + 1].src == Rect(0, layers[i].image.offset, TileSize, TileSize)
      && draws[i + 1].dst == Rect(inset, inset, size, size)
      && draws[i + 1].matrix == ColorMatrix(layers[i].image.color)
  {
    [Fill(Rect(0, 0, 128, 128), "#000000")] + Render(layers, size, inset)
  }

  predicate Within(r: Rect, side: int) {
    0 <= r.x && 0 <= r.y && r.x + r.w <= side && r.y + r.h <= side
  }

  /** The margin left of the square equals the one right of it, and likewise above and below. */
  predicate Centred(r: Rect, side: int) {
    r.x == side - (r.x + r.w) && r.y == side - (r.y + r.h)
  }

  /** Every call an icon issues stays inside the canvas when the inset square fits. */
  lemma PackIconInside(layers: seq<Layer>, size: int, inset: int)
    requires 0 <= inset && 0 <= size && inset + size <= 128
    ensures forall d :: d in PackIcon(layers, size, inset) ==> Within(if d.Fill? then d.area else d.dst, 128)
  {
    var draws := PackIcon(layers, size, inset);
    forall d | d in draws
      ensures Within(if d.Fill? then d.area else d.dst, 128)
    {
      var i :| 0 <= i < |draws| && draws[i] == d;
      if i > 0 {
        assert d == Render(layers, size, inset)[i - 1];
      }
    }
  }

  // ---------------------------------------------------------------------------------------------
  // The stack

  /** Every layer was numbered by the counter before its current value, and no two share a
      number. */
  predicate Wf(s: Session) {
    && (forall i :: 0 <= i < |s.layers| ==> s.layers[i].serial < s.counter)
    && (forall i, j :: 0 <= i < j < |s.layers| ==> s.layers[i].serial != s.layers[j].serial)
  }

  predicate HasId(layers: seq<Layer>, id: string) {
    exists i :: 0 <= i < |layers| && layers[i].Id() == id
  }

  /** `j` is the first position holding a layer with identity `id`. */
  predicate IsFirstMatch(layers: seq<Layer>, id: string, j: nat) {
    j < |layers| && layers[j].Id() == id && forall k :: 0 <= k < j ==> layers[k].Id() != id
  }

  /** `addLayer(index)`: construct a layer (taking the next counter value, untinted) and put it on
      top. */
  function AddLayer(s: Session, index: nat): (r: (Session, Layer))
    ensures r.0.layers == s.layers + [r.1]
    ensures r.0.counter == s.counter + 1
    ensures r.1.image == ImagePart(16 * index, White)
    ensures r.1.Id() == LayerId(s.counter)
  {
    var added := Layer(NewImagePart(index), s.counter);
    (Session(s.layers + [added], s.counter + 1), added)
  }

  /** `removeLayer(id)`: drop the first layer whose identity is `id`. */
  function RemoveLayer(layers: seq<Layer>, id: string): (r: seq<Layer>)
    ensures !HasId(layers, id) ==> r == layers
    ensures forall j: nat :: IsFirstMatch(layers, id, j) ==> r == layers[..j] + layers[j + 1..]
  {
    if layers == [] then []
    else if layers[0].Id() == id then layers[1..]
    else
      var rest := RemoveLayer(layers[1..], id);
      MatchInTail(layers, id);
      [layers[0]] + rest
  }

  /** When the head does not match, absence and the first match carry over to the tail. */
  lemma MatchInTail(layers: seq<Layer>, id: string)
    requires layers != [] && layers[0].Id() != id
    ensures !HasId(layers[1..], id) ==> !HasId(layers, id)
    ensures forall j: nat :: IsFirstMatch(layers, id, j) ==>
              && j > 0 && IsFirstMatch(layers[1..], id, j - 1)
              && [layers[0]] + (layers[1..][..j - 1] + layers[1..][j..]) == layers[..j] + layers[j + 1..]
  {
    if !HasId(layers[1..], id) {
      forall i | 0 <= i < |layers| ensures layers[i].Id() != id {
        if i > 0 { assert layers[i] == layers[1..][i - 1]; }
      }
    }
    forall j: nat | IsFirstMatch(layers, id, j)
      ensures && j > 0 && IsFirstMatch(layers[1..], id, j - 1)
              && [layers[0]] + (layers[1..][..j - 1] + layers[1..][j..]) == layers[..j] + layers[j + 1..]
    {
      forall k | 0 <= k < j - 1 ensures layers[1..][k].Id() != id {
        assert layers[1..][k] == layers[k + 1];
      }
      assert [layers[0]] + layers[1..][..j - 1] == layers[..j];
      assert layers[1..][j..] == layers[j + 1..];
    }
  }

  /** The loop of `removeLayer` as written: walk the stack with a position, splice out the first
      match and stop. */
  method RemoveLayerLoop(layers: seq<Layer>, id: string) returns (r: seq<Layer>)
    ensures r == RemoveLayer(layers, id)
  {
    var idx := 0;
    while idx < |layers|
      invariant 0 <= idx <= |layers|
      invariant forall k :: 0 <= k < idx ==> layers[k].Id() != id
    {
      if layers[idx].Id() == id {
        assert IsFirstMatch(layers, id, idx);
        r := layers[..idx] + layers[idx + 1..];
        return;
      }
      idx := idx + 1;
    }
    r := layers;
  }

  /** A tint change through a layer's colour input: the layer with identity `id` takes colour `c`. */
  function Recolor(layers: seq<Layer>, id: string, c: Rgb): (r: seq<Layer>)
    ensures |r| == |layers|
    ensures forall i :: 0 <= i < |layers| ==>
              r[i] == (if layers[i].Id() == id then layers[i].SetColor(c) else layers[i])
  {
    if layers == [] then []
    else [if layers[0].Id() == id then layers[0].SetColor(c) else layers[0]] + Recolor(layers[1..], id, c)
  }

  // ---------------------------------------------------------------------------------------------
  // Identity

  /** Distinct counter values give distinct identities. */
  lemma LayerIdInjective(a: nat, b: nat)
    requires LayerId(a) == LayerId(b)
    ensures a == b
  {
    PrefixedDecimalInjective("layer-", a, b);
  }

  /** In a well-formed session no two layers share an identity. */
  lemma IdsDistinct(s: Session)
    requires Wf(s)
    ensures forall i, j :: 0 <= i < j < |s.layers| ==> s.layers[i].Id() != s.layers[j].Id()
  {
    forall i, j | 0 <= i < j < |s.layers|
      ensures s.layers[i].Id() != s.layers[j].Id()
    {
      if s.layers[i].Id() == s.layers[j].Id() {
        LayerIdInjective(s.layers[i].serial, s.layers[j].serial);
      }
    }
  }

  /** Adding keeps the session well formed; the new layer goes on top, nothing below it changes,
      its identity is new to the stack and differs from every identity issued before, removed
      layers' included; rendering gains exactly one call, at the end. */
  lemma AddLayerFresh(s: Session, index: nat, size: int, offset: int)
    requires Wf(s)
    ensures var (s', added) := AddLayer(s, index);
              && Wf(s')
              && s'.layers[..|s.layers|] == s.layers
              && s'.layers[|s.layers|] == added
              && added.image.color == White
              && !HasId(s.layers, added.Id())
              && (forall k :: 0 <= k < s.counter ==> added.Id() != LayerId(k))
              && Render(s'.layers, size, offset) == Render(s.layers, size, offset) + [LayerDraw(added, size, offset)]
  {
    var (s', added) := AddLayer(s, index);
    forall k | 0 <= k < s.counter
      ensures added.Id() != LayerId(k)
    {
      if added.Id() == LayerId(k) {
        LayerIdInjective(s.counter, k);
      }
    }
    assert s'.layers[..|s.layers|] == s.layers;
    RenderAppend(s.layers, [added], size, offset);
  }

  /** Removing keeps the session well formed, and with identities unique no layer with `id` is
      left afterwards: exactly one layer goes when one matched, none otherwise. */
  lemma RemoveLayerWf(s: Session, id: string)
    requires Wf(s)
    ensures var r := RemoveLayer(s.layers, id);
              && Wf(Session(r, s.counter))
              && !HasId(r, id)
              && |r| == (if HasId(s.layers, id) then |s.layers| - 1 else |s.layers|)
  {
    if HasId(s.layers, id) {
      var j := FirstMatch(s.layers, id);
      IdsDistinct(s);
      SpliceKeepsWf(s, j);
      SpliceDropsId(s.layers, id, j);
    }
  }

  lemma SpliceKeepsWf(s: Session, j: nat)
    requires Wf(s) && j < |s.layers|
    ensures Wf(Session(s.layers[..j] + s.layers[j + 1..], s.counter))
  {
    var r := s.layers[..j] + s.layers[j + 1..];
    assert forall i :: 0 <= i < |r| ==> r[i] == s.layers[if i < j then i else i + 1];
  }

  lemma SpliceDropsId(layers: seq<Layer>, id: string, j: nat)
    requires j < |layers| && layers[j].Id() == id
    requires forall a, b :: 0 <= a < b < |layers| ==> layers[a].Id() != layers[b].Id()
    ensures !HasId(layers[..j] + layers[j + 1..], id)
  {
    var r := layers[..j] + layers[j + 1..];
    forall i | 0 <= i < |r|
      ensures r[i].Id() != id
    {
      if i < j {
        assert r[i] == layers[i];
      } else {
        assert r[i] == layers[i + 1];
      }
    }
  }

  /** The first position of an identity the stack holds. */
  function FirstMatch(layers: seq<Layer>, id: string): (j: nat)
    requires HasId(layers, id)
    ensures IsFirstMatch(layers, id, j)
  {
    if layers[0].Id() == id then 0
    else
      assert HasId(layers[1..], id) by {
        var i :| 0 <= i < |layers| && layers[i].Id() == id;
        assert layers[1..][i - 1] == layers[i];
      }
      var j := FirstMatch(layers[1..], id);
      assert forall k :: 1 <= k < j + 1 ==> layers[k] == layers[1..][k - 1];
      j + 1
  }

  /** A tint change keeps order, tiles and identities, and changes exactly one call of a render:
      the recoloured layer's matrix. */
  lemma RecolorRender(s: Session, id: string, c: Rgb, size: int, offset: int)
    requires Wf(s)
    ensures Wf(Session(Recolor(s.layers, id, c), s.counter))
    ensures var before, after := Render(s.layers, size, offset), Render(Recolor(s.layers, id, c), size, offset);
              forall i :: 0 <= i < |s.layers| ==>
                after[i] == (if s.layers[i].Id() == id
                             then before[i].(matrix := ColorMatrix(c)) else before[i])
  {
  }
}

=== FILE: legacy.dfy ===
/** The older single-page music-disc maker. Its library half is the shared one, its naming and
    templates are the music-disc page's, and only the pack format numbers differ: the older page
    writes 52 (data) and 37 (resources) into its manifests instead of reading named constants. */
module LegacyDisc {
  import opened Numerals
  import opened Layers
  import opened Packs
  import DiscMaker

  const Formats := PackFormats(52, 37)

  lemma FormatDigits()
    ensures Decimal(52) == "52" && Decimal(37) == "37"
  {
    assert NatToString(5, 10) == "5" && NatToString(3, 10) == "3";
    assert NatToString(52, 10) == NatToString(5, 10) + [DigitChar(2)];
    assert NatToString(37, 10) == NatToString(3, 10) + [DigitChar(7)];
  }

  /** `downloadData` of the older page: the music-disc export with `pack_format` 52. */
  function DownloadData(p: Page, comparator: string, run: ProbeRun): (o: Outcome)
    ensures o.Refused? <==> !Ready(p)
    ensures o.Refused? ==> o.reason == NameNotSet
    ensures Ready(p) && run.ProbeFails? ==> o == Failed(run.failed)
    ensures Ready(p) && run.Probed? ==>
      o == Built(DiscMaker.DataPack(Formats, p.name, HashText(p), comparator, DurationText(run.log)))
    ensures o.Built? ==>
      && |o.entries| == 2 && DistinctPaths(o.entries)
      && o.entries[0].path == ["pack.mcmeta"] && o.entries[0].content.Text?
      && Embeds(o.entries[0].content.text, Member("pack_format", "52"))
      && o.entries[1].path == ["data", "discmaker", "jukebox_song", HashText(p) + ".json"]
  {
    FormatDigits();
    DiscMaker.DownloadData(Formats, p, comparator, run)
  }

  /** `downloadResources` of the older page: the music-disc export with `pack_format` 37, behind
      the same guard. */
  function DownloadResources(p: Page, layers: seq<Layer>, run: TranscodeRun): (r: (Page, Outcome))
    ensures r.1.Refused? <==> p.makingResources || !Ready(p)
    ensures r.1 == Refused(AlreadyRunning) <==> p.makingResources
    ensures r.1.Refused? ==> r.0 == p
    ensures !r.1.Refused? ==> r.0 == p.(makingResources := false)
    ensures !r.1.Refused? && run.TranscodeFails? ==> r.1 == Failed(run.failed)
    ensures !r.1.Refused? && run.Transcoded? ==>
      r.1 == Built(DiscMaker.ResourcePack(Formats, p.name, HashText(p), layers, run.audio))
    ensures r.1.Built? ==>
      && |r.1.entries| == 7
      && r.1.entries[0].path == ["pack.mcmeta"] && r.1.entries[0].content.Text?
      && Embeds(r.1.entries[0].content.text, Member("pack_format", "37"))
      && r.1.entries[3].path == ["assets", "discmaker", "sounds", "records", HashText(p) + ".ogg"]
  {
    FormatDigits();
    DiscMaker.DownloadResources(Formats, p, layers, run)
  }

  /** A ready page whose two exports both succeed gets packs that refer to each other: the data
      pack registers the song, and the resource pack holds the recording `sounds.json` names and
      the item model the commands use. */
  lemma BuiltPacksResolve(p: Page, comparator: string, log: Option<string>, layers: seq<Layer>,
                          audio: seq<bv8>)
    requires Ready(p) && !p.makingResources
    ensures var data := DownloadData(p, comparator, Probed(log));
            var res := DownloadResources(p, layers, Transcoded(audio)).1;
            var h := HashText(p);
      && data.Built? && res.Built?
      && Emits(data.entries, RegistryFile(DiscMaker.SongLoc(h), "jukebox_song"))
      && Emits(res.entries, SoundFile(DiscMaker.RecordLoc(h)))
      && Emits(res.entries, ItemModelFile(DiscMaker.SongLoc(h)))
      && res.entries[5].content.Text?
      && Embeds(res.entries[5].content.text, Member("name", Quote(LocText(DiscMaker.RecordLoc(h)))))
  {
    var h := HashText(p);
    var data := DiscMaker.DataPack(Formats, p.name, h, comparator, DurationText(log));
    var res := DiscMaker.ResourcePack(Formats, p.name, h, layers, audio);
    DiscMaker.ReferencesResolve(Formats, p.name, h, comparator, DurationText(log), layers, audio);
    assert data[1].path == RegistryFile(DiscMaker.SongLoc(h), "jukebox_song");
    assert res[3].path == SoundFile(DiscMaker.RecordLoc(h));
    assert res[6].path == ItemModelFile(DiscMaker.SongLoc(h));
  }
}

=== FILE: numerals.dfy ===
/** Positional numerals as JavaScript prints and parses them: `Number.prototype.toString(radix)`
    on a non-negative integer (lower-case digits, no leading zeros) and `parseInt(text, radix)`
    on text made only of digits of that radix. */
module Numerals {

  /** A digit of radix 16 or less, in either case. */
  predicate IsHexDigit(c: char) {
    ('0' <= c <= '9') || ('a' <= c <= 'f') || ('A' <= c <= 'F')
  }

  /** The digits `toString(radix)` prints: lower-case only. */
  predicate IsLowerDigit(c: char, radix: nat) {
    IsHexDigit(c) && !('A' <= c <= 'F') && DigitValue(c) < radix
  }

  predicate AllDigits(s: string, radix: nat) {
    forall i :: 0 <= i < |s| ==> IsHexDigit(s[i]) && DigitValue(s[i]) < radix
  }

  /** The value of one digit, as `parseInt` reads it. */
  function DigitValue(c: char): (v: nat)
    ensures IsHexDigit(c) ==> v < 16
    ensures '0' <= c <= '9' ==> v < 10
  {
    if '0' <= c <= '9' then c as int - '0' as int
    else if 'a' <= c <= 'f' then c as int - 'a' as int + 10
    else if 'A' <= c <= 'F' then c as int - 'A' as int + 10
    else 0
  }

  /** The lower-case digit `toString` prints for the value `d`. */
  function DigitChar(d: nat): (c: char)
    requires d < 16
    ensures IsHexDigit(c) && !('A' <= c <= 'F')
    ensures DigitValue(c) == d
  {
    if d < 10 then (48 + d) as char else (97 + d - 10) as char
  }

  /** ASCII lower-casing; every other character is left alone. */
  function ToLower(c: char): (l: char)
    ensures !('A' <= l <= 'Z')
    ensures !('A' <= c <= 'Z') ==> l == c
  {
    if 'A' <= c <= 'Z' then (c as int + 32) as char else c
  }

  function LowerString(s: string): (l: string)
    ensures |l| == |s|
    ensures forall i :: 0 <= i < |s| ==> l[i] == ToLower(s[i])
  {
    if s == [] then [] else [ToLower(s[0])] + LowerString(s[1..])
  }

  /** Lower-casing works character by character, so it distributes over concatenation. */
  lemma LowerAppend(a: string, b: string)
    ensures LowerString(a + b) == LowerString(a) + LowerString(b)
  {
    var l, r := LowerString(a + b), LowerString(a) + LowerString(b);
    forall i | 0 <= i < |l| ensures l[i] == r[i] {
      if i < |a| { assert (a + b)[i] == a[i]; } else { assert (a + b)[i] == b[i - |a|]; }
    }
  }

  /** Text without capitals is its own lower-case form. */
  lemma LowerFixed(s: string)
    requires forall i :: 0 <= i < |s| ==> !('A' <= s[i] <= 'Z')
    ensures LowerString(s) == s
  {
  }

  /** Printing a digit back after reading it only lower-cases it. */
  lemma DigitCharOfValue(c: char)
    requires IsHexDigit(c)
    ensures DigitChar(DigitValue(c)) == ToLower(c)
  {
  }

  /** `n.toString(radix)` for a non-negative integer `n`. */
  function NatToString(n: nat, radix: nat): (s: string)
    requires 2 <= radix <= 16
    ensures 1 <= |s|
    ensures forall i :: 0 <= i < |s| ==> IsLowerDigit(s[i], radix)
    ensures s[0] == '0' ==> n == 0 && s == "0"
    ensures n < radix <==> |s| == 1
    decreases n
  {
    if n < radix then [DigitChar(n)]
    else
      QuotientBounds(n, radix);
      var front := NatToString(n / radix, radix);
      var s := front + [DigitChar(n % radix)];
      assert s[0] == front[0];
      s
  }

  /** The value of a numeral: what `parseInt(s, radix)` returns for non-empty text made only of
      digits of that radix. The empty numeral is 0 here, where `parseInt` gives `NaN`; the
      decoder only ever reads two-digit slices. */
  function ParseNumeral(s: string, radix: nat): (v: nat)
    requires AllDigits(s, radix)
    ensures s == [] ==> v == 0
  {
    if s == [] then 0
    else ParseNumeral(s[..|s| - 1], radix) * radix + DigitValue(s[|s| - 1])
  }

  /** Reading back what `toString` printed gives the number again. */
  lemma {:induction false} ParseNatToString(n: nat, radix: nat)
    requires 2 <= radix <= 16
    ensures AllDigits(NatToString(n, radix), radix)
    ensures ParseNumeral(NatToString(n, radix), radix) == n
    decreases n
  {
    if n < radix {
      assert [DigitChar(n)] == [] + [DigitChar(n)];
      ParseSnoc([], DigitChar(n), radix);
    } else {
      ParseNatToString(n / radix, radix);
      LastDigitStep(n, radix);
    }
  }

  /** One step of the induction: appending the last digit multiplies by the radix and adds it. */
  lemma LastDigitStep(n: nat, radix: nat)
    requires 2 <= radix <= 16 && n >= radix
    requires ParseNumeral(NatToString(n / radix, radix), radix) == n / radix
    ensures AllDigits(NatToString(n, radix), radix)
    ensures ParseNumeral(NatToString(n, radix), radix) == n
  {
    var q, d := n / radix, n % radix;
    ParseSnoc(NatToString(q, radix), DigitChar(d), radix);
    DivMod(n, radix);
  }

  lemma ParseSnoc(t: string, c: char, radix: nat)
    requires AllDigits(t, radix) && IsHexDigit(c) && DigitValue(c) < radix
    ensures AllDigits(t + [c], radix)
    ensures ParseNumeral(t + [c], radix) == ParseNumeral(t, radix) * radix + DigitValue(c)
  {
    assert (t + [c])[..|t|] == t;
  }

  lemma QuotientBounds(n: nat, radix: nat)
    requires 2 <= radix <= n
    ensures 1 <= n / radix < n && n % radix < radix
  {
    DivMod(n, radix);
  }

  lemma DivMod(n: nat, radix: nat)
    requires 2 <= radix
    ensures (n / radix) * radix + n % radix == n
  {
  }

  /** So printing is injective: distinct numbers never print the same. */
  lemma NatToStringInjective(a: nat, b: nat, radix: nat)
    requires 2 <= radix <= 16
    requires NatToString(a, radix) == NatToString(b, radix)
    ensures a == b
  {
    ParseNatToString(a, radix);
    ParseNatToString(b, radix);
  }

  /** The decimal rendering JavaScript uses for an integer below 2^53 in a template literal. */
  function Decimal(n: nat): (s: string)
    ensures 1 <= |s|
    ensures forall i :: 0 <= i < |s| ==> '0' <= s[i] <= '9'
  {
    NatToString(n, 10)
  }

  lemma DecimalInjective(a: nat, b: nat)
    requires Decimal(a) == Decimal(b)
    ensures a == b
  {
    NatToStringInjective(a, b, 10);
  }

  /** A fixed prefix followed by a decimal still determines the number. */
  lemma PrefixedDecimalInjective(prefix: string, a: nat, b: nat)
    requires prefix + Decimal(a) == prefix + Decimal(b)
    ensures a == b
  {
    assert Decimal(a) == (prefix + Decimal(a))[|prefix|..];
    assert Decimal(b) == (prefix + Decimal(b))[|prefix|..];
    DecimalInjective(a, b);
  }

  /** So does a decimal followed by a fixed suffix. */
  lemma SuffixedDecimalInjective(suffix: string, a: nat, b: nat)
    requires Decimal(a) + suffix == Decimal(b) + suffix
    ensures a == b
  {
    var t := Decimal(a) + suffix;
    assert Decimal(a) == t[..|Decimal(a)|];
    assert Decimal(b) == t[..|Decimal(b)|];
    DecimalInjective(a, b);
  }
}

=== FILE: packs.dfy ===
/** What the two pages share: the archive entries they emit, the namespaced locations the game
    resolves to files inside a pack, and the page state behind the export buttons (the name, the
    hash, and the guard against a second resource-pack build). */
module Packs {
  import opened Numerals
  import opened Layers

  datatype Option<T> = None | Some(value: T)

  /** The payload of one archive entry. A picture is what a canvas of the given side shows after
      the listed calls; audio is what the codec service produced. */
  datatype Content =
    | Text(text: string)
    | Picture(side: nat, draws: seq<Draw>)
    | Audio(bytes: seq<bv8>)

  /** One file of an archive. Its path is the chain of folder names ending in the file name, as
      the archive builder's `folder(..).file(..)` calls spell it. */
  datatype Entry = Entry(path: seq<string>, content: Content)

  /** The two `pack_format` numbers, one per pack kind. */
  datatype PackFormats = PackFormats(data: nat, resource: nat)

  predicate Emits(entries: seq<Entry>, path: seq<string>) {
    exists i :: 0 <= i < |entries| && entries[i].path == path
  }

  /** No two entries share a path, so none is overwritten when the archive is assembled. */
  predicate DistinctPaths(entries: seq<Entry>) {
    forall i, j :: 0 <= i < j < |entries| ==> entries[i].path != entries[j].path
  }

  /** `part` occurs somewhere inside `text`. */
  predicate Embeds(text: string, part: string) {
    exists i :: 0 <= i <= |text| && part <= text[i..]
  }

  lemma EmbedsMiddle(before: string, part: string, after: string)
    ensures Embeds(before + part + after, part)
  {
    var text := before + part + after;
    assert text[|before|..] == part + after;
  }

  /** Containment passes down a concatenation from either side. */
  lemma EmbedsLeft(a: string, b: string, part: string)
    requires Embeds(a, part)
    ensures Embeds(a + b, part)
  {
    var i :| 0 <= i <= |a| && part <= a[i..];
    assert part <= (a + b)[i..];
  }

  lemma EmbedsRight(a: string, b: string, part: string)
    requires Embeds(b, part)
    ensures Embeds(a + b, part)
  {
    var i :| 0 <= i <= |b| && part <= b[i..];
    assert (a + b)[|a| + i..] == b[i..];
  }

  lemma EmbedsItself(a: string)
    ensures Embeds(a, a)
  {
    assert a[0..] == a;
  }

  lemma EmbedsTrans(a: string, b: string, c: string)
    requires Embeds(a, b) && Embeds(b, c)
    ensures Embeds(a, c)
  {
    var i :| 0 <= i <= |a| && b <= a[i..];
    var j :| 0 <= j <= |b| && c <= b[j..];
    assert c <= a[i + j..];
  }

  // ---------------------------------------------------------------------------------------------
  // Compact JSON, as the page templates spell it out: no blanks, members in the written order.
  // Names and values are interpolated as they are, without escaping.

  function Quote(s: string): string {
    "\"" + s + "\""
  }

  function Member(key: string, value: string): string {
    Quote(key) + ":" + value
  }

  function Join(items: seq<string>): string {
    if items == [] then "" else if |items| == 1 then items[0] else items[0] + "," + Join(items[1..])
  }

  function Object(members: seq<string>): string {
    "{" + Join(members) + "}"
  }

  function Array(items: seq<string>): string {
    "[" + Join(items) + "]"
  }

  lemma {:induction false} JoinEmbeds(items: seq<string>, i: nat)
    requires i < |items|
    ensures Embeds(Join(items), items[i])
  {
    if |items| == 1 {
      EmbedsItself(items[0]);
    } else if i == 0 {
      EmbedsItself(items[0]);
      EmbedsLeft(items[0], ",", items[0]);
      EmbedsLeft(items[0] + ",", Join(items[1..]), items[0]);
    } else {
      JoinEmbeds(items[1..], i - 1);
      EmbedsRight(items[0] + ",", Join(items[1..]), items[i]);
    }
  }

  /** Each member written into an object (each item written into an array) is in its text. */
  lemma ObjectEmbeds(members: seq<string>, i: nat)
    requires i < |members|
    ensures Embeds(Object(members), members[i])
  {
    JoinEmbeds(members, i);
    EmbedsRight("{", Join(members), members[i]);
    EmbedsLeft("{" + Join(members), "}", members[i]);
  }

  lemma ArrayEmbeds(items: seq<string>, i: nat)
    requires i < |items|
    ensures Embeds(Array(items), items[i])
  {
    JoinEmbeds(items, i);
    EmbedsRight("[", Join(items), items[i]);
    EmbedsLeft("[" + Join(items), "]", items[i]);
  }

  /** A member's text holds its key, quoted and followed by the colon, and its value. */
  lemma MemberEmbeds(key: string, value: string)
    ensures Embeds(Member(key, value), Quote(key) + ":")
    ensures Embeds(Member(key, value), value)
  {
    EmbedsItself(Quote(key) + ":");
    EmbedsLeft(Quote(key) + ":", value, Quote(key) + ":");
    EmbedsItself(value);
    EmbedsRight(Quote(key) + ":", value, value);
  }

  /** A member of an object that is itself the value of a member of `outer`. */
  lemma NestedEmbeds(outer: seq<string>, i: nat, key: string, inner: seq<string>, j: nat)
    requires i < |outer| && outer[i] == Member(key, Object(inner)) && j < |inner|
    ensures Embeds(Object(outer), inner[j])
  {
    ObjectEmbeds(outer, i);
    MemberEmbeds(key, Object(inner));
    ObjectEmbeds(inner, j);
    EmbedsTrans(Object(outer), Member(key, Object(inner)), Object(inner));
    EmbedsTrans(Object(outer), Object(inner), inner[j]);
  }

  /** `pack.mcmeta`: the pack format number and the description. */
  function Manifest(format: nat, description: string): (text: string)
    ensures Embeds(text, Member("pack_format", Decimal(format)))
    ensures Embeds(text, Member("description", Quote(description)))
  {
    var inner := [Member("pack_format", Decimal(format)), Member("description", Quote(description))];
    NestedEmbeds([Member("pack", Object(inner))], 0, "pack", inner, 0);
    NestedEmbeds([Member("pack", Object(inner))], 0, "pack", inner, 1);
    Object([Member("pack", Object(inner))])
  }

  // ---------------------------------------------------------------------------------------------
  // Namespaced locations

  /** An identifier `namespace:dir/.../name` as the game reads it from a command or a JSON file. */
  datatype Loc = Loc(ns: string, dirs: seq<string>, name: string)

  /** The slash-separated part after the colon. */
  function PathText(dirs: seq<string>, name: string): string {
    if dirs == [] then name else dirs[0] + "/" + PathText(dirs[1..], name)
  }

  function LocText(l: Loc): string {
    l.ns + ":" + PathText(l.dirs, l.name)
  }

  /** The files the game opens for a location, by what the location names: a registry entry of a
      data pack, or a sound, texture or model of a resource pack. */
  function RegistryFile(l: Loc, registry: string): seq<string> {
    ["data", l.ns, registry] + l.dirs + [l.name + ".json"]
  }

  function SoundFile(l: Loc): seq<string> {
    ["assets", l.ns, "sounds"] + l.dirs + [l.name + ".ogg"]
  }

  function TextureFile(l: Loc): seq<string> {
    ["assets", l.ns, "textures"] + l.dirs + [l.name + ".png"]
  }

  function ModelFile(l: Loc): seq<string> {
    ["assets", l.ns, "models"] + l.dirs + [l.name + ".json"]
  }

  /** An `item_model` component names a model under `item/`. */
  function ItemModelFile(l: Loc): seq<string> {
    ModelFile(Loc(l.ns, ["item"] + l.dirs, l.name))
  }

  /** A namespace's `sounds.json` keys each event by the part of its location after the colon. */
  function EventKey(l: Loc): string {
    PathText(l.dirs, l.name)
  }

  /** Sound events of a namespace are registered in one file, and so are its translations. */
  function SoundsFile(ns: string): seq<string> {
    ["assets", ns, "sounds.json"]
  }

  function LangFile(ns: string): seq<string> {
    ["assets", ns, "lang", "en_us.json"]
  }

  // ---------------------------------------------------------------------------------------------
  // Page state and the export guard

  /** The page's `hash`: the initial empty string, or the number `cyrb53` returned. */
  datatype HashState = Unset | Set(value: nat)

  /** The page's mutable state: the display name, the hash, and `makingResources`. */
  datatype Page = Page(name: string, hash: HashState, makingResources: bool)

  const Initial := Page("", Unset, false)

  /** `name.length == 0 || hash.length == 0` is false. A number has no `length`, so once a hash
      is set only an empty name can block. */
  predicate Ready(p: Page) {
    |p.name| > 0 && p.hash.Set?
  }

  /** The hash as a template literal renders it. */
  function HashText(p: Page): (h: string)
    requires p.hash.Set?
    ensures 1 <= |h| && forall i :: 0 <= i < |h| ==> '0' <= h[i] <= '9'
  {
    Decimal(p.hash.value)
  }

  datatype Refusal = NameNotSet | AlreadyRunning

  /** The codec-service steps that can throw. A missing upload throws before any of them, when
      the page reads the file name; the model counts it as `WriteInput`. */
  datatype Step = WriteInput | Probe | Transcode | ReadOutput

  /** How the codec service behaved for a data-pack export: a step threw, or the probe ran and
      logged its last line (if any). */
  datatype ProbeRun = ProbeFails(failed: Step) | Probed(log: Option<string>)

  /** How the codec service behaved for a resource-pack export: a step threw, or the transcoded
      Ogg Vorbis bytes were read back. */
  datatype TranscodeRun = TranscodeFails(failed: Step) | Transcoded(audio: seq<bv8>)

  datatype Outcome = Refused(reason: Refusal) | Failed(step: Step) | Built(entries: seq<Entry>)

  /** The duration text the data pack embeds: the probe's last log line, or 300 when it logged
      nothing. */
  function DurationText(d: Option<string>): string {
    if d.Some? then d.value else "300"
  }

  /** The checks before a resource-pack build: refuse while one is in flight, refuse without a
      name and hash, else raise `makingResources`. A refusal changes nothing. */
  function BeginResources(p: Page): (r: (Page, Option<Refusal>))
    ensures r.1 == Some(AlreadyRunning) <==> p.makingResources
    ensures r.1 == Some(NameNotSet) <==> !p.makingResources && !Ready(p)
    ensures r.1.Some? ==> r.0 == p
    ensures r.1.None? ==> r.0 == p.(makingResources := true)
  {
    if p.makingResources then (p, Some(AlreadyRunning))
    else if !Ready(p) then (p, Some(NameNotSet))
    else (p.(makingResources := true), None)
  }

  /** `stopMakingResources`: the build is over, whether it finished or threw. */
  function EndResources(p: Page): (r: Page)
    ensures !r.makingResources && r.name == p.name && r.hash == p.hash
  {
    p.(makingResources := false)
  }

  /** While a build is in flight a second one is refused and leaves the page as it is; once the
      first ends, a retry is possible again. */
  lemma GuardExcludesSecondBuild(p: Page)
    requires BeginResources(p).1.None?
    ensures var inFlight := BeginResources(p).0;
              && BeginResources(inFlight) == (inFlight, Some(AlreadyRunning))
              && BeginResources(EndResources(inFlight)).1.None?
  {
  }
}

=== FILE: utf16.dfy ===
/** JavaScript strings as sequences of UTF-16 code units: what `charCodeAt` reads and what
    `length` counts. A Dafny `char` is a Unicode scalar value; one outside the Basic Multilingual
    Plane takes two units, a high surrogate then a low one. */
module Utf16 {

  /** One UTF-16 code unit, what `charCodeAt` returns. */
  newtype CodeUnit = x: int | 0 <= x < 0x1_0000

  const PlaneSize: int := 0x1_0000
  const HighSurrogates: int := 0xD800
  const LowSurrogates: int := 0xDC00
  const SurrogatesEnd: int := 0xE000

  /** The units of one character: itself inside the Basic Multilingual Plane, a surrogate pair
      outside it. */
  function Units(c: char): (u: seq<CodeUnit>)
    ensures 1 <= |u| <= 2
    ensures c as int < PlaneSize ==> u == [(c as int) as CodeUnit]
  {
    var v := c as int;
    if v < PlaneSize then [v as CodeUnit]
    else [(HighSurrogates + (v - PlaneSize) / 0x400) as CodeUnit,
          (LowSurrogates + (v - PlaneSize) % 0x400) as CodeUnit]
  }

  /** The JavaScript string behind a Dafny string: its UTF-16 code units. */
  function CodeUnits(s: string): (u: seq<CodeUnit>)
    ensures |s| <= |u| <= 2 * |s|
    ensures (forall i :: 0 <= i < |s| ==> s[i] as int < PlaneSize) ==> |u| == |s|
  {
    if s == [] then [] else Units(s[0]) + CodeUnits(s[1..])
  }

  /** A string in the Basic Multilingual Plane is one unit per character, each its code point. */
  lemma {:induction false} CodeUnitsOfBmp(s: string)
    requires forall i :: 0 <= i < |s| ==> s[i] as int < PlaneSize
    ensures |CodeUnits(s)| == |s|
    ensures forall i :: 0 <= i < |s| ==> CodeUnits(s)[i] == (s[i] as int) as CodeUnit
  {
    if s != [] {
      CodeUnitsOfBmp(s[1..]);
      assert CodeUnits(s) == [(s[0] as int) as CodeUnit] + CodeUnits(s[1..]);
      forall i | 1 <= i < |s|
        ensures CodeUnits(s)[i] == (s[i] as int) as CodeUnit
      {
        assert CodeUnits(s)[i] == CodeUnits(s[1..])[i - 1];
        assert s[1..][i - 1] == s[i];
      }
    }
  }

  /** A character outside the Basic Multilingual Plane becomes a high surrogate and a low one,
      which together spell its code point back. */
  lemma SurrogatePair(c: char)
    requires c as int >= PlaneSize
    ensures var u := CodeUnits([c]);
      && |u| == 2
      && HighSurrogates <= u[0] as int < LowSurrogates <= u[1] as int < SurrogatesEnd
      && (u[0] as int - HighSurrogates) * 0x400 + (u[1] as int - LowSurrogates) + PlaneSize == c as int
  {
    var v := c as int - PlaneSize;
    assert v < 0x10_0000;
    var q, r := v / 0x400, v % 0x400;
    assert q * 0x400 + r == v && 0 <= q < 0x400 && 0 <= r < 0x400;
    assert CodeUnits([c]) == Units(c) + CodeUnits([]);
  }

  /** The units of a concatenation are the units of its parts, one after the other. */
  lemma {:induction false} CodeUnitsAppend(a: string, b: string)
    ensures CodeUnits(a + b) == CodeUnits(a) + CodeUnits(b)
    decreases |a|
  {
    if a == [] {
      assert a + b == b;
    } else {
      assert (a + b)[0] == a[0] && (a + b)[1..] == a[1..] + b;
      CodeUnitsAppend(a[1..], b);
    }
  }
}
